=== FILE: README.md ===
# Text-to-BPMN converter: a Dafny model

The converter reads a Persian description of a business process. It writes a
BPMN 2.0 diagram: a start event, one task per step, an end event and the
sequence flows between them. When the text holds a two-way decision ("اگر …
باشد … اما اگر …") or a multi-way decision, the diagram gets an exclusive
split gateway, one arm per outcome, and a join gateway. It also gets a grid
layout with a rectangle for every node and a line for every flow.

This project models the part of `app/converter.py` that follows detection.
It covers these pieces:

- **Task labels.** A label gets a role header when the step names one of ten
  roles. Its action is stripped and word-wrapped to 24 characters per line
  (`_label_with_role`, `_wrap_label`, `_format_label_with_role`).
- **Decision cleanup.** A condition is normalised into a question, and the
  role "کارشناس" (expert) is carried onto both arms of a decision
  (`_normalize_condition` and the tail of `_detect_branch`).
- **The diagram graph.** `convert_text_to_bpmn` builds either the linear
  diagram or the gateway diagram. Ids are deterministic (`StartEvent_1`,
  `Activity_k`, `Activity_Yes_1`, `Activity_No_1`, `Activity_No_2`,
  `Activity_B_k`, `Gateway_Split_1`, `Gateway_Join_1`, `EndEvent_1`). Flows
  are numbered `Flow_1 … Flow_k`.
- **The layout.** `_build_diagrams` lays out the linear row by position.
  `_build_diagrams_complex` places every node on its column and row of the
  grid.

Modules, in dependency order:

- `Wrappers` (`wrappers.dfy`): `Option` and `Result`.
- `Text` (`text.dfy`): Python string operations the converter uses. These are
  `str.strip`, `str.split()`, `" ".join`, `"\n".join`, whitespace collapsing
  with `re.sub(r"\s+", " ", …)`, `str.replace`, the line count
  `str.count("\n") + 1` (modelled through `SplitOn`, the pieces between
  newlines), and decimal formatting of indexes.
- `Labels` (`labels.dfy`): role headers and word wrapping.
- `Branches` (`branches.dfy`): the detected decision records, condition
  normalisation and expert propagation.
- `Ids` (`ids.dfy`): node and flow ids.
- `Graph` (`graph.dfy`): the nodes (id, kind, label, column, row) and
  numbered flows of either diagram, and `Convert`, the converter up to XML.
- `Structure` (`structure.dfy`): the invariants every diagram keeps. Ids are
  distinct, cells are distinct, flows are numbered in order, and every flow
  runs rightwards between two nodes of the diagram. It also holds the gateway
  degrees.
- `Connect` (`connect.dfy`): every node but the start event has an incoming
  flow and every node but the end event an outgoing one, so every node lies on
  a path of flows from the start event to the end event.
- `Layout` (`layout.dfy`): node rectangles, flow waypoints and the facts about
  them.

Some parts of the converter become inputs to the model:

- Step extraction and decision detection are parameters of `Graph.Convert`:
  `steps`, `preSteps` and a `Detection`. A multi-way decision has at least
  two arms (`Graph.Detected`), because `_detect_multi_branch` reports none
  with fewer (`app/converter.py` lines 469-470).
- The removal of a "فرایند … به شرح زیر است:" preface from labels is a
  parameter `preface: string -> string`.

## Model

| member | source | states |
|---|---|---|
| Text.Trim | app/converter.py:513 | The stripped string starts and ends with a kept character. It is empty exactly when every character is stripped. |
| Text.TrimIsSlice | app/converter.py:513 | The stripped string is a contiguous slice of the input, and every character cut from either side is one of the stripped characters. |
| Text.TrimUnique | app/converter.py:513 | Any slice of the input with only stripped characters around it and kept characters at its own ends is exactly the stripped string, so the stripped string is fully determined. |
| Text.WordsJoinRoundTrip | app/converter.py:523 | Joining words with one space and splitting on whitespace gives back the same words. |
| Text.WordsOfTrim | app/converter.py:447 | Stripping whitespace does not change the words of a text. |
| Text.Collapse | app/converter.py:449 | After collapsing, the only whitespace character is a single space, and no two whitespace characters are adjacent. |
| Text.CollapseOfStrip | app/converter.py:447-449 | Stripping and then collapsing whitespace yields the text's words joined by single spaces. |
| Text.Segments | app/converter.py:508 | `str.replace` cuts the text at occurrences of the role. The pieces joined with the role give the text back, and no piece still contains the role. |
| Text.ReplaceAbsent | app/converter.py:508 | Replacing a pattern that does not occur leaves the text unchanged. |
| Text.SplitOn | app/converter.py:58 | Splitting on `\n` yields one more piece than there are `\n` characters. No piece contains `\n`, and joining the pieces restores the text. |
| Text.SplitOnJoin | app/converter.py:546 | Splitting the `\n`-joined lines again gives back exactly those lines. |
| Text.DecimalInjective | app/converter.py:52 | Different indexes are written as different decimal strings. |
| Labels.PackWords | app/converter.py:531-541 | Each loop step of the wrap keeps the invariant: the length counter matches the current line, every line fits, and every closed line was closed because the next word would not fit. No word is lost, reordered or duplicated. |
| Labels.PackWordKeeps | app/converter.py:532-541 | One word of the loop keeps the invariant and only ever appends to the finished lines. |
| Labels.WrapGroups | app/converter.py:523-543 | The lines hold the words in order. Every line has at most 24 characters or a single word, and only the first line can be empty. A line ends only where the next word would not fit on it. There are no lines exactly when there are no words. |
| Labels.WrapFirstLineEmpty | app/converter.py:531-536 | The first line is empty exactly when the first word is longer than 24 characters. |
| Labels.WrapLabel | app/converter.py:519-546 | Wrapping never changes the words of a label. A text without words comes back unchanged. |
| Labels.WrapLabelLines | app/converter.py:519-546 | The wrapped label's lines are single-spaced. Each has at most 24 characters or one word, and each breaks only where the next word would not fit. Only the first line can be empty, and it is empty exactly when the first word is longer than 24 characters. |
| Labels.LineCount | app/converter.py:58 | The line count `label.count("\n") + 1` is the number of lines of the label and is at least 1. |
| Labels.FindRole | app/converter.py:505-509 | The search returns the first role in list order that occurs in the text. It returns nothing exactly when no role occurs. |
| Labels.LabelWithRole | app/converter.py:488-516 | The header is the first listed role that occurs in the text, so a longer role listed before "کارشناس" wins over it. The label is then that role, the divider line "—", and the action. The action has every occurrence of the role removed and is stripped of `" :،,-"`. Without a role the label is the stripped action. |
| Labels.FormatLabelWords | app/converter.py:480-481 | A formatted label's words are the role's words, the em dash, then the action's words. The wrap keeps them all. |
| Labels.WordsAroundDivider | app/converter.py:515 | The divider contributes exactly the one word "—" between role and action. |
| Branches.NormalizeCondition | app/converter.py:446-454 | A normalised condition is never empty and always ends with "؟". |
| Branches.NormalizeByWords | app/converter.py:446-454 | Normalisation equals an independent reading. It takes the condition's words, rewrites "باشد" to "است" in each, joins them with single spaces and adds "؟" unless it is already last. |
| Branches.CopulaOfJoin | app/converter.py:449-451 | Rewriting "باشد" in a single-spaced text acts word by word. |
| Branches.CopulaSplit | app/converter.py:451 | A non-word character separates the rewriting: each side is rewritten independently. |
| Branches.CopulaKeepsWord | app/converter.py:451 | Rewriting never introduces whitespace into a word. |
| Branches.CopulaIdempotent | app/converter.py:451 | Rewriting "باشد" to "است" a second time changes nothing. |
| Branches.NormalizeIdempotent | app/converter.py:446-454 | Normalising an already normalised question changes nothing. |
| Branches.WithExpert | app/converter.py:433-436 | The action afterwards contains "کارشناس" and ends with the original action. An action that already names the role is unchanged. Any other action gets exactly "کارشناس " (with its space) in front, and nothing else. |
| Branches.PropagateExpert | app/converter.py:430-439 | When the context names the expert, each arm becomes `WithExpert` of itself, so an arm that already names the role keeps its text. Otherwise the decision is unchanged. The question and follow-up are never touched, and each arm's text ends with its original text. |
| Branches.PropagateIdempotent | app/converter.py:430-439 | Propagating the role twice is the same as propagating it once. |
| Branches.FinishBranch | app/converter.py:422-443 | The question is the normalised condition, so it ends with "؟". The follow-up is present exactly when its text is non-empty, and then it is that text. When the whitespace-collapsed text names the expert, each arm is `WithExpert` of the detected action. Otherwise the arms are the detected actions unchanged. |
| Ids.IdTextInjective | app/converter.py:22-146 | Two node ids are spelled the same exactly when they are the same node. This holds across all nine id families the converter writes. |
| Ids.FlowTextInjective | app/converter.py:165-172 | `Flow_m` and `Flow_n` are spelled the same exactly when m = n. |
| Ids.FlowTextNotNode | app/converter.py:169 | No flow id is spelled like a node id. |
| Graph.StepTasks | app/converter.py:49-60 | Pre-decision step i becomes task `Activity_{i+1}` in column i+1 of row 0, labelled with the formatted step. |
| Graph.Question | app/converter.py:64 | The split is named by the two-way decision's question when it is non-empty. Otherwise, and always for a multi-way decision, it is named "تصمیم‌گیری". |
| Graph.YesNoArms | app/converter.py:80-127 | Yes is on row 0 and no on row 1, both one column right of the split. Both are tasks labelled with the formatted yes and no actions. The follow-up `Activity_No_2` exists exactly when its text is non-empty. It is then a task labelled with the formatted follow-up text, one column further right on row 1. |
| Graph.MultiArms | app/converter.py:128-143 | Arm i becomes `Activity_B_{i+1}`, one column right of the split on row i, labelled with the formatted action. |
| Graph.MaxColumn | app/converter.py:151 | The maximum branch level bounds every arm node's column and is reached by one of them. |
| Graph.Lookup | app/converter.py:656-657 | A node is found exactly when one has the id, and the node found has that id. |
| Graph.GatewayParts | app/converter.py:22-162 | The gateway diagram holds the start event, the pre-decision tasks, and the split named by the question in the column after the last pre-task. It also holds the arms, the unnamed join one column right of the rightmost arm node (or of the split when there are no arms), and the end one column further. |
| Graph.LinearNodes | app/converter.py:229-249 | The linear diagram puts the start, then `Activity_1 … Activity_n` labelled with the formatted steps, then the end, in columns 0 … n+1 of row 0. |
| Graph.Convert | app/converter.py:12-30 | Conversion fails, with the converter's message, exactly when no step was found. Otherwise a detected decision gives the gateway diagram, and a text without one gives the linear diagram with n+2 nodes and n+1 flows. |
| Structure.LookupDistinct | app/converter.py:648-657 | With distinct ids, looking a node's id up finds that node. |
| Structure.YesNoArmsShape | app/converter.py:80-127 | The two-way arms ascend by cell and by id. They start one column right of the split, and the internal flow runs rightwards. |
| Structure.MultiArmsShape | app/converter.py:128-143 | The multi-way arms ascend by cell and by id and start one column right of the split. |
| Structure.PartsAscendingCells | app/converter.py:39-162 | Nodes in emission order strictly ascend by (column, row), so no two share a grid cell. |
| Structure.PartsAscendingIds | app/converter.py:42-162 | Nodes in emission order strictly ascend by id rank, so no id is emitted twice. |
| Structure.PartsForward | app/converter.py:174-190 | Every flow of the gateway diagram joins two of its nodes and runs to a column strictly to the right. |
| Structure.SplitFanOut | app/converter.py:180-182 | Exactly one flow per arm leaves the split gateway. |
| Structure.JoinFanIn | app/converter.py:186-188 | Exactly one flow per arm enters the join gateway. |
| Structure.PartsSize | app/converter.py:164-190 | flows + 2 = nodes + arms: one flow per node but the start, plus one extra into the join per arm beyond the first. |
| Structure.NumberedWellFormed | app/converter.py:165-172 | Numbering rightward links over ascending nodes gives a well-formed diagram. |
| Structure.GatewayWellFormed | app/converter.py:22-190 | The gateway diagram is well formed. Ids are distinct, cells are distinct, flows are `Flow_1 … Flow_k` in order, and every flow runs rightwards between two of its nodes. |
| Structure.LinearWellFormed | app/converter.py:228-256 | The linear diagram is well formed in the same sense. |
| Structure.ConvertWellFormed | app/converter.py:12-256 | Every diagram the converter produces is well formed. |
| Structure.GatewayDegrees | app/converter.py:164-190 | In the numbered flows, the split has one outgoing flow per arm and the join one incoming flow per arm. Flows + 2 = nodes + arms. |
| Structure.ConvertDegrees | app/converter.py:12-30 | When a decision is detected, the converter's diagram has a split with at least two outgoing flows, one per arm, and a join with one incoming flow per arm. Without a decision the diagram has no gateway node. |
| Connect.NumberConnected | app/converter.py:165-172 | Numbering links into flows keeps every node's incoming and outgoing links. |
| Connect.LinearConnected | app/converter.py:233-256 | In the linear diagram every node but the start is entered by a flow and every node but the end is left by one. |
| Connect.PartsEntered | app/converter.py:174-190 | In the gateway diagram every node but the start is the target of a link. This holds for each pre-task, the split, every arm head and follow-up, the join and the end. |
| Connect.PartsExited | app/converter.py:174-190 | In the gateway diagram every node but the end is the source of a link, including every arm's last task, which flows into the join. |
| Connect.GatewayConnected | app/converter.py:164-190 | The gateway diagram is connected in the same sense. |
| Connect.ConvertConnected | app/converter.py:12-256 | Every diagram the converter produces is connected. |
| Connect.FromStart | app/converter.py:164-190 | In a well-formed connected diagram, a path of flows leads from the start event to every node. |
| Connect.ToEnd | app/converter.py:164-190 | In a well-formed connected diagram, a path of flows leads from every node to the end event. |
| Connect.ConvertReachable | app/converter.py:12-256 | Every node of every diagram the converter produces lies on a path of flows from the start event to the end event. |
| Layout.TaskHeight | app/converter.py:641-645 | A task's height is even and at least 80, and exactly 80 for at most two lines. It fits within the 160-unit row exactly when the label has at most six lines. |
| Layout.TaskHeightStep | app/converter.py:641-645 | Beyond two lines, each further label line adds 18 to the task's height. |
| Layout.Place | app/converter.py:629-647 | A node's y is its row's. Events are 36-wide squares and gateways 50-wide squares at their column's x. A task is 160 wide, shifted 62 left, and as tall as `TaskHeight` gives for its line count. |
| Layout.PlaceExtent | app/converter.py:629-647 | Every rectangle stays within its column's 220-unit band. A rectangle also stays within its row's band unless it is a task of more than six lines. |
| Layout.FlowEdges | app/converter.py:655-661 | The edges exist exactly when both ends of every flow are nodes of the diagram. Edge k then runs from the middle of the right side of its source to the middle of the left side of its target. |
| Layout.GridLayout | app/converter.py:611-669 | The layout exists exactly when both ends of every flow are nodes. Shape i carries node i's id and the rectangle `Place` gives its kind, line count and cell. Edge k carries flow k's number and runs from the right middle of its source's rectangle to the left middle of its target's. |
| Layout.AttachMiddle | app/converter.py:658-661 | Waypoints sit exactly at half the height, so the `.0f` formatting never has to round them. |
| Layout.EdgesRightward | app/converter.py:655-667 | For a well-formed diagram the layout succeeds. Edge k carries flow k+1, and every edge runs at least 60 units rightwards. |
| Layout.CellsApart | app/converter.py:629-648 | Nodes on different grid cells get non-overlapping rectangles when no task label exceeds six lines. |
| Layout.ShapesApart | app/converter.py:629-648 | In a well-formed diagram with short labels, no two node rectangles overlap. |
| Layout.StackedTasks | app/converter.py:641-645 | A task and the one directly below it are disjoint exactly when the upper label has at most six lines. |
| Layout.YesOverNo | app/converter.py:87-104 | The yes and no tasks overlap exactly when the yes label wraps to more than six lines. |
| Layout.LinearShapeAgrees | app/converter.py:564-577 | On the linear row, placing by position with the id-prefix test agrees with placing by cell and kind. |
| Layout.ChainEdgesAgree | app/converter.py:587-597 | Edges of a chain read by position (flow k from node k to node k+1) equal the edges found by looking both ends up. |
| Layout.LinearMatchesGrid | app/converter.py:549-608 | For the linear diagram, `_build_diagrams` produces exactly what `_build_diagrams_complex` would produce from the same nodes and flows. |

## Left out

- Step extraction (`_extract_steps`) and the preface removal regular expression are not modelled. Step lists and the preface function are parameters.
- The regular-expression matching inside `_detect_branch` and `_detect_multi_branch` is not modelled. Their results enter as a `Detection`, and for the two-way case `Branches.FinishBranch` models the part after matching.
- XML serialisation is not modelled: the element strings, `escape`, `process_id` and the namespace header. The model stops at nodes, flows, shapes and edges.
- `_format_label_with_role_direct` is not modelled separately because its body is the same call as `_format_label_with_role`.
- `app/routes.py` and the web application are not part of this model.
- The `.0f` formatting of coordinates is not modelled. Every coordinate is an integer in the model; `Layout.AttachMiddle` shows the halved heights are exact.
- `Text.IsWordChar` approximates the regular-expression `\w` by ASCII plus the Arabic block letters and digits. `Text.IsSpace` is exactly the set of characters Python treats as whitespace in `str.isspace()`, `str.split()`, `str.strip()` and `\s`.
- `Graph.Lookup` returns the first node with an id where the Python dictionary keeps the last. `Structure.LookupDistinct` shows these agree because ids are distinct.
- Lines 437-439 of the expert heuristic do nothing (`pass`) and have no counterpart.
- The `label_lines_by_id.get(node_id, 1)` and `node_types.get(node_id, "task")` defaults are not modelled. Every node carries its own kind and label, so the defaults are never used.
- Labels.FormatLabelWords: states the words of the formatted label, not its exact line breaks. The divider's own line breaks disappear because `_wrap_label` splits on all whitespace.

=== FILE: branches.dfy ===
/** What `_detect_branch` does after its regular expressions have matched:
    the condition becomes a yes/no question (`_normalize_condition`), the
    expert role is carried over to both actions, and the optional follow-up of
    the "no" arm is kept only when it is non-empty. The regular expressions
    themselves are not modelled: the condition and the actions they capture
    are inputs here. */
module Branches {
  import opened Wrappers
  import opened Text

  /** The role keyword `_detect_branch` carries over to the actions. */
  const Expert: string := "کارشناس"

  /** The copula `_normalize_condition` rewrites, and what it becomes. */
  const Bashad: string := "باشد"
  const Ast: string := "است"

  /** The Arabic question mark the question must end with. */
  const QuestionMark: char := '\U{061F}'

  /** The generic question of a multi-way branch ("تصمیم‌گیری", decision). */
  const DecisionLabel: string := "تصمیم\U{200C}گیری"

  /** A two-way conditional; the follow-up chains onto the "no" arm only. */
  datatype Branch = Branch(question: string, yesAction: string, noAction: string, afterNoAction: Option<string>)

  /** An N-way conditional sharing one generic question. */
  datatype MultiBranch = MultiBranch(question: string, branches: seq<string>)

  // ---------------------------------------------------------------------------
  // _normalize_condition

  /** `باشد` stands at the start of `s` as a whole word: the character before
      it (`prevWord` tells whether it is a word character) and the one after it
      are not word characters. */
  predicate StartsCopula(s: string, prevWord: bool) {
    !prevWord && |s| >= 4 && s[0] == Bashad[0] && s[1] == Bashad[1] && s[2] == Bashad[2] && s[3] == Bashad[3]
    && (|s| == 4 || !IsWordChar(s[4]))
  }

  /** `re.sub(r"\bباشد\b", "است", s)`, scanning left to right; `prevWord`
      tells whether the character before `s` is a word character. */
  function ReplaceCopula(s: string, prevWord: bool): (r: string)
    ensures r == [] <==> s == []
    decreases |s|
  {
    if StartsCopula(s, prevWord) then Ast + ReplaceCopula(s[4..], true)
    else if s == [] then []
    else [s[0]] + ReplaceCopula(s[1..], IsWordChar(s[0]))
  }

  /** `_normalize_condition(text)`: strip, collapse whitespace, rewrite the
      copula `باشد` to `است`, and append `؟` unless it is already there. */
  function NormalizeCondition(text: string): (q: string)
    ensures q != [] && q[|q| - 1] == QuestionMark
  {
    var r := ReplaceCopula(Collapse(Trim(text, IsSpace)), false);
    if r != [] && r[|r| - 1] == QuestionMark then r else r + [QuestionMark]
  }

  /** The words of a condition with the copula rewritten in each. */
  function CopulaWords(ws: seq<string>): seq<string> {
    seq(|ws|, i requires 0 <= i < |ws| => ReplaceCopula(ws[i], false))
  }

  /** Words joined by single spaces, with `؟` appended unless already last. */
  function AsQuestion(ws: seq<string>): string {
    var s := JoinWith(ws, " ");
    if s != [] && s[|s| - 1] == QuestionMark then s else s + [QuestionMark]
  }

  /** A non-word character among the first four rules out a match there. */
  lemma NoCopulaAcross(s: string, k: nat, p: bool)
    requires k < 4 && k < |s| && !IsWordChar(s[k])
    ensures !StartsCopula(s, p)
  {
  }

  /** A whole-word match at the start of `a` stays one when a non-word
      character follows `a`. */
  lemma CopulaExtends(a: string, c: char, b: string, p: bool)
    requires !IsWordChar(c) && StartsCopula(a, p)
    ensures StartsCopula(a + [c] + b, p)
  {
    var s := a + [c] + b;
    assert s[..4] == a[..4];
    if |a| == 4 { assert s[4] == c; } else { assert s[4] == a[4]; }
  }

  /** No match at the start of `a` means none at the start of `a + [c] + b`. */
  lemma NoCopulaExtends(a: string, c: char, b: string, p: bool)
    requires !IsWordChar(c) && a != [] && !StartsCopula(a, p)
    ensures !StartsCopula(a + [c] + b, p)
  {
    var s := a + [c] + b;
    if |a| < 4 {
      assert s[|a|] == c;
      NoCopulaAcross(s, |a|, p);
    } else if !p && s[..4] == Bashad {
      assert a[..4] == s[..4];
      assert |a| > 4 && s[4] == a[4];
    }
  }

  /** A non-word character separates the copula rewriting: a whole-word
      `باشد` never spans it, and after it the scan starts afresh. */
  lemma {:induction false} CopulaSplit(a: string, c: char, b: string, p: bool)
    requires !IsWordChar(c)
    ensures ReplaceCopula(a + [c] + b, p) == ReplaceCopula(a, p) + [c] + ReplaceCopula(b, false)
    decreases |a|, 1
  {
    if a == [] {
      CopulaAtSeparator(c, b, p);
      assert a + [c] + b == [c] + b;
    } else if StartsCopula(a, p) {
      CopulaSplitMatch(a, c, b, p);
    } else {
      CopulaSplitCopy(a, c, b, p);
    }
  }

  lemma {:induction false} CopulaSplitMatch(a: string, c: char, b: string, p: bool)
    requires !IsWordChar(c) && StartsCopula(a, p)
    ensures ReplaceCopula(a + [c] + b, p) == ReplaceCopula(a, p) + [c] + ReplaceCopula(b, false)
    decreases |a|, 0
  {
    var x := a[4..];
    CopulaExtends(a, c, b, p);
    MatchSplit(a, c, b, p);
    CopulaSplit(x, c, b, true);
    UnfoldMatch(a, p);
    Regroup(Ast, ReplaceCopula(x, true), c, ReplaceCopula(b, false));
  }

  lemma {:induction false} CopulaSplitCopy(a: string, c: char, b: string, p: bool)
    requires !IsWordChar(c) && a != [] && !StartsCopula(a, p)
    ensures ReplaceCopula(a + [c] + b, p) == ReplaceCopula(a, p) + [c] + ReplaceCopula(b, false)
    decreases |a|, 0
  {
    var x := a[1..];
    var w := IsWordChar(a[0]);
    NoCopulaExtends(a, c, b, p);
    CopySplit(a, c, b, p);
    CopulaSplit(x, c, b, w);
    UnfoldCopy(a, p);
    Regroup([a[0]], ReplaceCopula(x, w), c, ReplaceCopula(b, false));
  }

  lemma Regroup(h: string, y: string, c: char, z: string)
    ensures h + (y + [c] + z) == (h + y) + [c] + z
  {
  }

  lemma UnfoldMatch(a: string, p: bool)
    requires StartsCopula(a, p)
    ensures ReplaceCopula(a, p) == Ast + ReplaceCopula(a[4..], true)
  {
  }

  lemma UnfoldCopy(a: string, p: bool)
    requires a != [] && !StartsCopula(a, p)
    ensures ReplaceCopula(a, p) == [a[0]] + ReplaceCopula(a[1..], IsWordChar(a[0]))
  {
  }

  lemma MatchSplit(a: string, c: char, b: string, p: bool)
    requires |a| >= 4 && StartsCopula(a + [c] + b, p)
    ensures ReplaceCopula(a + [c] + b, p) == Ast + ReplaceCopula(a[4..] + [c] + b, true)
  {
    assert (a + [c] + b)[4..] == a[4..] + [c] + b;
  }

  lemma CopulaAtSeparator(c: char, b: string, p: bool)
    requires !IsWordChar(c)
    ensures ReplaceCopula([c] + b, p) == [c] + ReplaceCopula(b, false)
  {
    NoCopulaAcross([c] + b, 0, p);
    assert ([c] + b)[1..] == b;
  }

  lemma CopySplit(a: string, c: char, b: string, p: bool)
    requires a != [] && !StartsCopula(a + [c] + b, p)
    ensures ReplaceCopula(a + [c] + b, p) == [a[0]] + ReplaceCopula(a[1..] + [c] + b, IsWordChar(a[0]))
  {
    var s := a + [c] + b;
    assert s[0] == a[0];
    assert s[1..] == a[1..] + [c] + b;
  }

  /** Rewriting a word keeps it a word. */
  lemma {:induction false} CopulaKeepsWord(w: string, p: bool)
    requires forall i :: 0 <= i < |w| ==> !IsSpace(w[i])
    ensures forall i :: 0 <= i < |ReplaceCopula(w, p)| ==> !IsSpace(ReplaceCopula(w, p)[i])
    decreases |w|
  {
    if StartsCopula(w, p) {
      CopulaKeepsWord(w[4..], true);
    } else if w != [] {
      CopulaKeepsWord(w[1..], IsWordChar(w[0]));
    }
  }

  /** The copula rewriting of words joined by spaces rewrites each word. */
  lemma {:induction false} CopulaOfJoin(ws: seq<string>)
    ensures ReplaceCopula(JoinWith(ws, " "), false) == JoinWith(CopulaWords(ws), " ")
    decreases |ws|
  {
    if |ws| > 1 {
      CopulaSplit(ws[0], ' ', JoinWith(ws[1..], " "), false);
      CopulaOfJoin(ws[1..]);
      assert CopulaWords(ws)[1..] == CopulaWords(ws[1..]);
    }
  }

  /** The question `_normalize_condition` builds, read word by word: each
      whitespace-separated word of the condition with `باشد` rewritten, joined
      by single spaces, ending in `؟`. */
  lemma NormalizeByWords(text: string)
    ensures NormalizeCondition(text) == AsQuestion(CopulaWords(Words(text)))
  {
    CollapseOfStrip(text);
    CopulaOfJoin(Words(text));
  }

  /** After a word character the scan cannot match, so it copies. */
  lemma CopyAfterWord(s: string)
    requires s != []
    ensures ReplaceCopula(s, true) == [s[0]] + ReplaceCopula(s[1..], IsWordChar(s[0]))
  {
  }

  lemma {:induction false} CopulaAfterAst(x: string, p: bool)
    ensures ReplaceCopula(Ast + x, p) == Ast + ReplaceCopula(x, true)
  {
    var s := Ast + x;
    assert s[0] == '\U{0627}' && IsWordChar(s[0]);
    if |s| >= 4 { assert s[..4][0] == s[0]; }
    assert !StartsCopula(s, p);
    assert ReplaceCopula(s, p) == [s[0]] + ReplaceCopula(s[1..], true);
    var s1 := s[1..];
    assert s1[0] == '\U{0633}' && IsWordChar(s1[0]);
    CopyAfterWord(s1);
    var s2 := s1[1..];
    assert s2[0] == '\U{062A}' && IsWordChar(s2[0]);
    CopyAfterWord(s2);
    assert s2[1..] == x;
    assert Ast == [s[0], s1[0], s2[0]];
  }

  /** After a word character, a leading run of `n` word characters of the
      rewriting was copied unchanged from the input. */
  lemma {:induction false} WordRun(v: string, n: nat)
    requires n <= |ReplaceCopula(v, true)|
    requires forall j :: 0 <= j < n ==> IsWordChar(ReplaceCopula(v, true)[j])
    ensures n <= |v| && forall j :: 0 <= j < n ==> v[j] == ReplaceCopula(v, true)[j]
    ensures ReplaceCopula(v, true)[n..] == ReplaceCopula(v[n..], true)
    decreases n
  {
    if n > 0 {
      var r := ReplaceCopula(v, true);
      CopyAfterWord(v);
      var w := v[1..];
      assert r[0] == v[0] && IsWordChar(v[0]);
      var r1 := ReplaceCopula(w, true);
      assert r == [v[0]] + r1;
      assert forall j :: 0 <= j < n - 1 ==> r1[j] == r[j + 1];
      WordRun(w, n - 1);
      assert w[n - 1..] == v[n..];
    }
  }

  /** Rewriting never produces a new whole-word `باشد` at its start: one at
      the start of the copy was already at the start of the original. */
  lemma CopulaOfCopy(s: string, p: bool)
    requires s != []
    ensures StartsCopula([s[0]] + ReplaceCopula(s[1..], IsWordChar(s[0])), p) ==> StartsCopula(s, p)
  {
    var t := [s[0]] + ReplaceCopula(s[1..], IsWordChar(s[0]));
    if StartsCopula(t, p) {
      assert IsWordChar(t[0]);
      var r := ReplaceCopula(s[1..], true);
      assert t[1..] == r;
      assert r[0] == t[1] && r[1] == t[2] && r[2] == t[3];
      WordRun(s[1..], 3);
      var rest := s[1..][3..];
      assert t[4..] == ReplaceCopula(rest, true);
      if |t| > 4 {
        CopyAfterWord(rest);
        assert s[4] == t[4];
      }
    }
  }

  /** Rewriting the copula twice is rewriting it once. */
  lemma {:induction false} CopulaIdempotent(s: string, p: bool)
    ensures ReplaceCopula(ReplaceCopula(s, p), p) == ReplaceCopula(s, p)
    decreases |s|
  {
    if StartsCopula(s, p) {
      CopulaIdempotent(s[4..], true);
      CopulaAfterAst(ReplaceCopula(s[4..], true), p);
    } else if s != [] {
      CopulaOfCopy(s, p);
      CopulaIdempotent(s[1..], IsWordChar(s[0]));
      var t := [s[0]] + ReplaceCopula(s[1..], IsWordChar(s[0]));
      assert t[0] == s[0] && t[1..] == ReplaceCopula(s[1..], IsWordChar(s[0]));
    }
  }

  /** The words of `AsQuestion(ts)`: the mark is glued to the last word, or
      stands alone when there is none. */
  function Marked(ts: seq<string>): seq<string> {
    var s := JoinWith(ts, " ");
    if ts == [] then [[QuestionMark]]
    else if s != [] && s[|s| - 1] == QuestionMark then ts
    else ts[..|ts| - 1] + [ts[|ts| - 1] + [QuestionMark]]
  }

  /** Words that the rewriting leaves alone. */
  predicate Settled(ts: seq<string>) {
    forall i :: 0 <= i < |ts| ==> IsWord(ts[i]) && ReplaceCopula(ts[i], false) == ts[i]
  }

  lemma MarkedSettled(ts: seq<string>)
    requires Settled(ts)
    ensures JoinWith(Marked(ts), " ") == AsQuestion(ts)
    ensures Settled(Marked(ts))
  {
    var s := JoinWith(ts, " ");
    if ts == [] {
      CopulaSplit([], QuestionMark, [], false);
    } else if !(s != [] && s[|s| - 1] == QuestionMark) {
      var n := |ts| - 1;
      JoinSnocLast(ts, [QuestionMark], " ");
      var us := Marked(ts);
      assert us == ts[..n] + [ts[n] + [QuestionMark]];
      forall i | 0 <= i < |us|
        ensures IsWord(us[i]) && ReplaceCopula(us[i], false) == us[i]
      {
        if i < n {
          assert us[i] == ts[i];
        } else {
          assert us[i] == ts[n] + [QuestionMark] == ts[n] + [QuestionMark] + [];
          CopulaSplit(ts[n], QuestionMark, [], false);
        }
      }
    }
  }

  /** Rewritten words are words the rewriting leaves alone. */
  lemma CopulaWordsSettled(ws: seq<string>)
    requires forall i :: 0 <= i < |ws| ==> IsWord(ws[i])
    ensures Settled(CopulaWords(ws))
  {
    var ts := CopulaWords(ws);
    forall i | 0 <= i < |ts|
      ensures IsWord(ts[i]) && ReplaceCopula(ts[i], false) == ts[i]
    {
      CopulaKeepsWord(ws[i], false);
      CopulaIdempotent(ws[i], false);
    }
  }

  lemma SettledFixed(ts: seq<string>)
    requires Settled(ts)
    ensures CopulaWords(ts) == ts
  {
  }

  /** Normalising a question again leaves it unchanged. */
  lemma NormalizeIdempotent(text: string)
    ensures NormalizeCondition(NormalizeCondition(text)) == NormalizeCondition(text)
  {
    var q := NormalizeCondition(text);
    var ts := CopulaWords(Words(text));
    CopulaWordsSettled(Words(text));
    NormalizeByWords(text);
    var us := Marked(ts);
    MarkedSettled(ts);
    assert JoinWith(us, " ") == q;
    WordsJoinRoundTrip(us, " ");
    NormalizeByWords(q);
    SettledFixed(us);
    assert AsQuestion(us) == q;
  }

  // ---------------------------------------------------------------------------
  // role propagation

  /** An action after propagation: it mentions the expert role, prefixing it
      with "کارشناس " only when it did not already. */
  function WithExpert(action: string): (r: string)
    ensures Contains(r, Expert)
    ensures |action| <= |r| && r[|r| - |action|..] == action
    ensures Contains(action, Expert) ==> r == action
    ensures !Contains(action, Expert) ==>
              |r| == |Expert| + 1 + |action| && r[..|Expert| + 1] == Expert + " "
  {
    if Contains(action, Expert) then action else Expert + " " + action
  }

  /** The propagation step of `_detect_branch`: when the text mentions the
      expert role, both actions are made to mention it; otherwise the branch is
      left as it is. The question and the follow-up are never touched. */
  function PropagateExpert(b: Branch, context: string): (r: Branch)
    ensures r.question == b.question && r.afterNoAction == b.afterNoAction
    ensures Contains(context, Expert) ==> Contains(r.yesAction, Expert) && Contains(r.noAction, Expert)
    ensures !Contains(context, Expert) ==> r == b
    ensures Contains(context, Expert) ==>
              r.yesAction == WithExpert(b.yesAction) && r.noAction == WithExpert(b.noAction)
    ensures Contains(b.yesAction, Expert) ==> r.yesAction == b.yesAction
    ensures Contains(b.noAction, Expert) ==> r.noAction == b.noAction
    ensures |b.yesAction| <= |r.yesAction| && r.yesAction[|r.yesAction| - |b.yesAction|..] == b.yesAction
    ensures |b.noAction| <= |r.noAction| && r.noAction[|r.noAction| - |b.noAction|..] == b.noAction
  {
    if Contains(context, Expert) then
      b.(yesAction := WithExpert(b.yesAction), noAction := WithExpert(b.noAction))
    else b
  }

  /** Propagating twice is propagating once. */
  lemma PropagateIdempotent(b: Branch, context: string)
    ensures PropagateExpert(PropagateExpert(b, context), context) == PropagateExpert(b, context)
  {
    if Contains(context, Expert) {
      var r := PropagateExpert(b, context);
      assert WithExpert(r.yesAction) == r.yesAction;
      assert WithExpert(r.noAction) == r.noAction;
    }
  }

  /** The decision `_detect_branch` returns, from its normalised `question`,
      the captured actions and the `context` the expert role is looked up in. */
  function Settle(question: string, yes: string, no: string, afterNo: string, context: string): (b: Branch)
    ensures b.question == question
    ensures b.afterNoAction.Some? <==> afterNo != []
    ensures b.afterNoAction.Some? ==> b.afterNoAction.value == afterNo
    ensures Contains(context, Expert) ==> b.yesAction == WithExpert(yes) && b.noAction == WithExpert(no)
    ensures !Contains(context, Expert) ==> b.yesAction == yes && b.noAction == no
  {
    var followUp := if afterNo != [] then Some(afterNo) else None;
    PropagateExpert(Branch(question, yes, no, followUp), context)
  }

  /** The end of `_detect_branch` once a pattern matched: `condition`, `yes`,
      `no` and `afterNo` are what the pattern captured, `text` the user's text.
      The question is the normalised condition, the expert role is propagated
      over the whitespace-collapsed text, and the follow-up is present exactly
      when it is non-empty. */
  function FinishBranch(condition: string, yes: string, no: string, afterNo: string, text: string): (b: Branch)
    ensures b.question == NormalizeCondition(condition)
    ensures b.question != [] && b.question[|b.question| - 1] == QuestionMark
    ensures b.afterNoAction.Some? <==> afterNo != []
    ensures b.afterNoAction.Some? ==> b.afterNoAction.value == afterNo
    ensures Contains(Collapse(Trim(text, IsSpace)), Expert) ==>
              Contains(b.yesAction, Expert) && Contains(b.noAction, Expert)
    ensures Contains(Collapse(Trim(text, IsSpace)), Expert) ==>
              b.yesAction == WithExpert(yes) && b.noAction == WithExpert(no)
    ensures !Contains(Collapse(Trim(text, IsSpace)), Expert) ==> b.yesAction == yes && b.noAction == no
    ensures |yes| <= |b.yesAction| && b.yesAction[|b.yesAction| - |yes|..] == yes
    ensures |no| <= |b.noAction| && b.noAction[|b.noAction| - |no|..] == no
  {
    var question := NormalizeCondition(condition);
    assert question != [] && question[|question| - 1] == QuestionMark;
    Settle(question, yes, no, afterNo, Collapse(Trim(text, IsSpace)))
  }
}

=== FILE: connect.dfy ===
/** Connectivity of the diagrams `convert_text_to_bpmn` builds: every node
    but the start event has an incoming flow and every node but the end event
    an outgoing one, so every node lies on a path of flows from the start
    event to the end event. */
module Connect {
  import opened Wrappers
  import opened Ids
  import opened Graph
  import opened Structure

  // ---------------------------------------------------------------------------
  // incoming and outgoing flows

  /** Some flow of `p` enters the node `id`. */
  predicate Entered(p: Process, id: NodeId) {
    exists k :: 0 <= k < |p.flows| && p.flows[k].target == id
  }

  /** Some flow of `p` leaves the node `id`. */
  predicate Exited(p: Process, id: NodeId) {
    exists k :: 0 <= k < |p.flows| && p.flows[k].source == id
  }

  /** Every node but the start event is entered, and every node but the end
      event is left, by some flow. */
  predicate Connected(p: Process) {
    && (forall i :: 0 <= i < |p.nodes| && p.nodes[i].id != StartEvent ==> Entered(p, p.nodes[i].id))
    && (forall i :: 0 <= i < |p.nodes| && p.nodes[i].id != EndEvent ==> Exited(p, p.nodes[i].id))
  }

  /** Some link of `ls` ends at `n`. */
  predicate LinkInto(ls: seq<Link>, n: Node) {
    exists l :: l in ls && l.to == n
  }

  /** Some link of `ls` starts at `n`. */
  predicate LinkOutOf(ls: seq<Link>, n: Node) {
    exists l :: l in ls && l.from == n
  }

  /** Nodes whose links into and out of them exist make a connected process
      once the links are numbered. */
  lemma NumberConnected(ns: seq<Node>, ls: seq<Link>)
    requires forall i :: 0 <= i < |ns| && ns[i].id != StartEvent ==> LinkInto(ls, ns[i])
    requires forall i :: 0 <= i < |ns| && ns[i].id != EndEvent ==> LinkOutOf(ls, ns[i])
    ensures Connected(Process(ns, Number(ls)))
  {
    var p := Process(ns, Number(ls));
    forall i | 0 <= i < |ns| && ns[i].id != StartEvent
      ensures Entered(p, ns[i].id)
    {
      var l :| l in ls && l.to == ns[i];
      var k :| 0 <= k < |ls| && ls[k] == l;
      assert p.flows[k].target == ns[i].id;
    }
    forall i | 0 <= i < |ns| && ns[i].id != EndEvent
      ensures Exited(p, ns[i].id)
    {
      var l :| l in ls && l.from == ns[i];
      var k :| 0 <= k < |ls| && ls[k] == l;
      assert p.flows[k].source == ns[i].id;
    }
  }

  // ---------------------------------------------------------------------------
  // the linear diagram

  /** In a chain every node but the first is entered and every node but the
      last is left. */
  lemma ChainLinks(ns: seq<Node>)
    ensures forall i :: 0 < i < |ns| ==> LinkInto(Chain(ns), ns[i])
    ensures forall i :: 0 <= i < |ns| - 1 ==> LinkOutOf(Chain(ns), ns[i])
  {
    forall i | 0 < i < |ns| ensures LinkInto(Chain(ns), ns[i]) {
      assert Chain(ns)[i - 1] in Chain(ns);
    }
    forall i | 0 <= i < |ns| - 1 ensures LinkOutOf(Chain(ns), ns[i]) {
      assert Chain(ns)[i] in Chain(ns);
    }
  }

  lemma LinearConnected(steps: seq<string>, preface: string -> string)
    ensures Connected(LinearProcess(steps, preface))
  {
    var ns := LinearNodes(steps, preface);
    ChainLinks(ns);
    NumberConnected(ns, Chain(ns));
  }

  // ---------------------------------------------------------------------------
  // the gateway diagram

  /** A node of the arms is the head or the follow-up of one of them. */
  lemma {:induction false} ArmNodeOf(arms: seq<Arm>, n: Node) returns (i: nat)
    requires n in AllArmNodes(arms)
    ensures i < |arms| && (n == arms[i].head || (arms[i].follow.Some? && n == arms[i].follow.value))
    decreases |arms|
  {
    if n in ArmNodes(arms[0]) {
      i := 0;
    } else {
      var j := ArmNodeOf(arms[1..], n);
      i := j + 1;
    }
  }

  /** The link from an arm's head to its follow-up is among the internal links. */
  lemma {:induction false} InnerLink(arms: seq<Arm>, i: nat)
    requires i < |arms| && arms[i].follow.Some?
    ensures Link(arms[i].head, arms[i].follow.value) in Inner(arms)
    decreases i
  {
    if i > 0 {
      InnerLink(arms[1..], i - 1);
    }
  }

  /** Each group of links belongs to the gateway diagram's links. */
  lemma PartsLinksMembers(g: Parts)
    ensures Link(g.start, if g.pre != [] then g.pre[0] else g.split) in PartsLinks(g)
    ensures forall l :: l in Chain(g.pre) ==> l in PartsLinks(g)
    ensures g.pre != [] ==> Link(g.pre[|g.pre| - 1], g.split) in PartsLinks(g)
    ensures forall l :: l in FanOut(g.split, g.arms) ==> l in PartsLinks(g)
    ensures forall l :: l in Inner(g.arms) ==> l in PartsLinks(g)
    ensures forall l :: l in FanIn(g.arms, g.join) ==> l in PartsLinks(g)
    ensures Link(g.join, g.end) in PartsLinks(g)
  {
  }

  /** The links that enter each kind of node of the gateway diagram. */
  lemma PartsEntered(g: Parts, n: Node)
    requires PartsShape(g) && g.arms != []
    requires n in PartsNodes(g) && n.id != StartEvent
    ensures LinkInto(PartsLinks(g), n)
  {
    var ls := PartsLinks(g);
    PartsLinksMembers(g);
    if n in g.pre {
      var i :| 0 <= i < |g.pre| && g.pre[i] == n;
      if i == 0 {
        assert Link(g.start, g.pre[0]) in ls;
      } else {
        ChainLinks(g.pre);
        var l :| l in Chain(g.pre) && l.to == n;
        assert l in ls;
      }
    } else if n == g.split {
      if g.pre == [] {
        assert Link(g.start, g.split) in ls;
      } else {
        assert Link(g.pre[|g.pre| - 1], g.split) in ls;
      }
    } else if n in AllArmNodes(g.arms) {
      var i := ArmNodeOf(g.arms, n);
      if n == g.arms[i].head {
        assert FanOut(g.split, g.arms)[i] in ls;
      } else {
        InnerLink(g.arms, i);
        assert Link(g.arms[i].head, n) in ls;
      }
    } else if n == g.join {
      assert FanIn(g.arms, g.join)[0] in ls;
    } else {
      assert n == g.end;
      assert Link(g.join, g.end) in ls;
    }
  }

  /** The links that leave each kind of node of the gateway diagram. */
  lemma PartsExited(g: Parts, n: Node)
    requires PartsShape(g) && g.arms != []
    requires n in PartsNodes(g) && n.id != EndEvent
    ensures LinkOutOf(PartsLinks(g), n)
  {
    var ls := PartsLinks(g);
    PartsLinksMembers(g);
    if n == g.start {
      assert Link(g.start, if g.pre != [] then g.pre[0] else g.split) in ls;
    } else if n in g.pre {
      var i :| 0 <= i < |g.pre| && g.pre[i] == n;
      if i == |g.pre| - 1 {
        assert Link(g.pre[|g.pre| - 1], g.split) in ls;
      } else {
        ChainLinks(g.pre);
        var l :| l in Chain(g.pre) && l.from == n;
        assert l in ls;
      }
    } else if n == g.split {
      assert FanOut(g.split, g.arms)[0] in ls;
    } else if n in AllArmNodes(g.arms) {
      var i := ArmNodeOf(g.arms, n);
      if n == g.arms[i].head && g.arms[i].follow.Some? {
        InnerLink(g.arms, i);
        assert Link(n, g.arms[i].follow.value) in ls;
      } else {
        assert n == ArmEnd(g.arms[i]);
        assert FanIn(g.arms, g.join)[i] in ls;
      }
    } else {
      assert n == g.join;
      assert Link(g.join, g.end) in ls;
    }
  }

  lemma GatewayConnected(preSteps: seq<string>, det: Detection, preface: string -> string)
    requires !det.NoBranch? && Detected(det)
    ensures Connected(GatewayProcess(preSteps, det, preface))
  {
    var g := GatewayParts(preSteps, det, preface);
    GatewayPartsShape(preSteps, det, preface);
    var ns := PartsNodes(g);
    forall i | 0 <= i < |ns| && ns[i].id != StartEvent ensures LinkInto(PartsLinks(g), ns[i]) {
      PartsEntered(g, ns[i]);
    }
    forall i | 0 <= i < |ns| && ns[i].id != EndEvent ensures LinkOutOf(PartsLinks(g), ns[i]) {
      PartsExited(g, ns[i]);
    }
    NumberConnected(ns, PartsLinks(g));
  }

  /** Every diagram the converter produces is connected. */
  lemma ConvertConnected(steps: seq<string>, preSteps: seq<string>, det: Detection, preface: string -> string)
    requires Detected(det)
    ensures Convert(steps, preSteps, det, preface).Success? ==> Connected(Convert(steps, preSteps, det, preface).value)
  {
    if steps != [] {
      if det.NoBranch? {
        LinearConnected(steps, preface);
      } else {
        GatewayConnected(preSteps, det, preface);
      }
    }
  }

  // ---------------------------------------------------------------------------
  // paths from the start and to the end

  /** A flow of `p` runs from `a` to `b`. */
  predicate Step(p: Process, a: NodeId, b: NodeId) {
    exists k :: 0 <= k < |p.flows| && p.flows[k].source == a && p.flows[k].target == b
  }

  /** `w` is a non-empty walk along the flows of `p`. */
  predicate Walk(p: Process, w: seq<NodeId>) {
    |w| >= 1 && forall t :: 0 <= t < |w| - 1 ==> Step(p, w[t], w[t + 1])
  }

  /** Some walk along the flows of `p` leads from `a` to `b`. */
  ghost predicate Reaches(p: Process, a: NodeId, b: NodeId) {
    exists w :: Walk(p, w) && w[0] == a && w[|w| - 1] == b
  }

  /** In a well-formed connected diagram every node but the start event has
      a predecessor, in a strictly earlier column. */
  lemma Predecessor(p: Process, i: nat) returns (j: nat)
    requires i < |p.nodes| && DistinctIds(p.nodes) && Entered(p, p.nodes[i].id)
    requires forall k :: 0 <= k < |p.flows| ==> Runs(p.nodes, p.flows[k])
    ensures j < |p.nodes| && Step(p, p.nodes[j].id, p.nodes[i].id) && p.nodes[j].column < p.nodes[i].column
  {
    var n := p.nodes[i];
    var k :| 0 <= k < |p.flows| && p.flows[k].target == n.id;
    assert Runs(p.nodes, p.flows[k]);
    LookupDistinct(p.nodes, n);
    assert Lookup(p.nodes, p.flows[k].target) == Some(n);
    var m := Lookup(p.nodes, p.flows[k].source).value;
    assert m in p.nodes && m.id == p.flows[k].source;
    j :| 0 <= j < |p.nodes| && p.nodes[j] == m;
  }

  /** In a well-formed connected diagram every node but the end event has a
      successor, in a strictly later column. */
  lemma Successor(p: Process, i: nat) returns (j: nat)
    requires i < |p.nodes| && DistinctIds(p.nodes) && Exited(p, p.nodes[i].id)
    requires forall k :: 0 <= k < |p.flows| ==> Runs(p.nodes, p.flows[k])
    ensures j < |p.nodes| && Step(p, p.nodes[i].id, p.nodes[j].id) && p.nodes[i].column < p.nodes[j].column
  {
    var n := p.nodes[i];
    var k :| 0 <= k < |p.flows| && p.flows[k].source == n.id;
    assert Runs(p.nodes, p.flows[k]);
    LookupDistinct(p.nodes, n);
    assert Lookup(p.nodes, p.flows[k].source) == Some(n);
    var m := Lookup(p.nodes, p.flows[k].target).value;
    assert m in p.nodes && m.id == p.flows[k].target;
    j :| 0 <= j < |p.nodes| && p.nodes[j] == m;
  }

  lemma WalkSnoc(p: Process, w: seq<NodeId>, b: NodeId)
    requires Walk(p, w) && Step(p, w[|w| - 1], b)
    ensures Walk(p, w + [b])
  {
    var v := w + [b];
    forall t | 0 <= t < |v| - 1 ensures Step(p, v[t], v[t + 1]) {
      if t < |w| - 1 {
        assert v[t] == w[t] && v[t + 1] == w[t + 1];
      }
    }
  }

  lemma WalkCons(p: Process, a: NodeId, w: seq<NodeId>)
    requires Walk(p, w) && Step(p, a, w[0])
    ensures Walk(p, [a] + w)
  {
    var v := [a] + w;
    forall t | 0 <= t < |v| - 1 ensures Step(p, v[t], v[t + 1]) {
      if t > 0 {
        assert v[t] == w[t - 1] && v[t + 1] == w[t];
      }
    }
  }

  /** Following predecessors goes to strictly earlier columns and so ends at
      the start event. */
  lemma {:induction false} FromStart(p: Process, i: nat) returns (w: seq<NodeId>)
    requires WellFormed(p) && Connected(p) && i < |p.nodes|
    ensures Walk(p, w) && w[0] == StartEvent && w[|w| - 1] == p.nodes[i].id
    decreases p.nodes[i].column
  {
    if p.nodes[i].id == StartEvent {
      w := [StartEvent];
    } else {
      assert Entered(p, p.nodes[i].id);
      var j := Predecessor(p, i);
      var prev := FromStart(p, j);
      WalkSnoc(p, prev, p.nodes[i].id);
      w := prev + [p.nodes[i].id];
    }
  }

  /** Following successors goes to strictly later columns and so ends at the
      end event. */
  lemma {:induction false} ToEnd(p: Process, i: nat) returns (w: seq<NodeId>)
    requires WellFormed(p) && Connected(p) && i < |p.nodes|
    ensures Walk(p, w) && w[0] == p.nodes[i].id && w[|w| - 1] == EndEvent
    decreases MaxColumn(p.nodes) - p.nodes[i].column
  {
    if p.nodes[i].id == EndEvent {
      w := [EndEvent];
    } else {
      assert Exited(p, p.nodes[i].id);
      var j := Successor(p, i);
      var next := ToEnd(p, j);
      WalkCons(p, p.nodes[i].id, next);
      w := [p.nodes[i].id] + next;
    }
  }

  /** Every node of a diagram the converter produces lies on a path of flows
      from the start event to the end event. */
  lemma ConvertReachable(steps: seq<string>, preSteps: seq<string>, det: Detection, preface: string -> string)
    requires Detected(det)
    ensures var r := Convert(steps, preSteps, det, preface);
            r.Success? ==> forall i :: 0 <= i < |r.value.nodes| ==>
              Reaches(r.value, StartEvent, r.value.nodes[i].id) && Reaches(r.value, r.value.nodes[i].id, EndEvent)
  {
    var r := Convert(steps, preSteps, det, preface);
    if r.Success? {
      var p := r.value;
      ConvertWellFormed(steps, preSteps, det, preface);
      ConvertConnected(steps, preSteps, det, preface);
      forall i | 0 <= i < |p.nodes|
        ensures Reaches(p, StartEvent, p.nodes[i].id) && Reaches(p, p.nodes[i].id, EndEvent)
      {
        var a := FromStart(p, i);
        var b := ToEnd(p, i);
      }
    }
  }
}

=== FILE: graph.dfy ===
/** The process graph `convert_text_to_bpmn` builds: its nodes in document
    order, each with the grid column and row the layout places it on, and its
    sequence flows numbered `Flow_1 .. Flow_k` in the order they are added.
    Step extraction and branch detection are regular-expression heuristics
    that are not modelled: their results are inputs (`steps`, `preSteps`,
    `Detection`). */
module Graph {
  import opened Wrappers
  import opened Text
  import opened Labels
  import opened Branches
  import opened Ids

  const StartName: string := "شروع"
  const EndName: string := "پایان"

  /** The message of the `ValueError` raised when no step was found. */
  const NoStepsMessage: string :=
    "امکان ساخت نمودار وجود ندارد. لطفاً توضیح را با جملات یا مراحل مشخص وارد کنید."

  /** What the branch detectors found; a two-way branch takes precedence, so
      at most one of them is reported. */
  datatype Detection = NoBranch | Single(branch: Branch) | Multi(multi: MultiBranch)

  /** What branch detection guarantees: `_detect_multi_branch` reports a
      multi-way decision only when it found at least two arms. */
  predicate Detected(det: Detection) {
    det.Multi? ==> |det.multi.branches| >= 2
  }

  /** The `node_types` of the source: "start", "task", "gateway", "end". */
  datatype Kind = Start | Task | Gateway | End

  /** A node: id, kind, display name (a wrapped label for tasks) and grid cell. */
  datatype Node = Node(id: NodeId, kind: Kind, name: string, column: nat, row: nat)

  /** A sequence flow `Flow_<index>` from one node id to another. */
  datatype Flow = Flow(index: nat, source: NodeId, target: NodeId)

  datatype Process = Process(nodes: seq<Node>, flows: seq<Flow>)

  /** A flow before numbering, given by its end nodes. */
  datatype Link = Link(from: Node, to: Node)

  /** A branch arm: its first task and, on the "no" arm, the follow-up task. */
  datatype Arm = Arm(head: Node, follow: Option<Node>)

  function StartNode(): Node {
    Node(StartEvent, Start, StartName, 0, 0)
  }

  /** The formatted label of every text, in order. */
  function FormatLabels(texts: seq<string>, preface: string -> string): (r: seq<string>)
    ensures |r| == |texts|
    ensures forall i :: 0 <= i < |r| ==> r[i] == FormatLabel(texts[i], preface)
  {
    seq(|texts|, i requires 0 <= i < |texts| => FormatLabel(texts[i], preface))
  }

  /** Tasks `Activity_1 .. Activity_n` named `names`, on row 0 from column 1. */
  function NamedTasks(names: seq<string>): (ts: seq<Node>)
    ensures |ts| == |names|
    ensures forall i :: 0 <= i < |ts| ==>
              ts[i].id == Activity(i + 1) && ts[i].kind == Task && ts[i].column == i + 1 && ts[i].row == 0
    ensures forall i :: 0 <= i < |ts| ==> ts[i].name == names[i]
  {
    seq(|names|, i requires 0 <= i < |names| => Node(Activity(i + 1), Task, names[i], i + 1, 0))
  }

  /** One task per step, `Activity_1 .. Activity_n`, on row 0 from column 1. */
  function StepTasks(steps: seq<string>, preface: string -> string): (ts: seq<Node>)
    ensures |ts| == |steps|
    ensures forall i :: 0 <= i < |ts| ==>
              ts[i].id == Activity(i + 1) && ts[i].kind == Task && ts[i].column == i + 1 && ts[i].row == 0
    ensures forall i :: 0 <= i < |ts| ==> ts[i].name == FormatLabel(steps[i], preface)
  {
    NamedTasks(FormatLabels(steps, preface))
  }

  /** The split gateway's column: one past the last step before the decision,
      or 1 when there is none. */
  function SplitColumn(pre: seq<Node>): nat {
    if pre != [] then pre[|pre| - 1].column + 1 else 1
  }

  /** The split gateway's name: the question when there is one, else the
      generic "تصمیم‌گیری". */
  function Question(det: Detection): (q: string)
    ensures q != []
    ensures det.Single? && det.branch.question != [] ==> q == det.branch.question
    ensures !(det.Single? && det.branch.question != []) ==> q == DecisionLabel
  {
    if det.Single? && det.branch.question != [] then det.branch.question else DecisionLabel
  }

  /** The last task of an arm, the one that flows into the join. */
  function ArmEnd(a: Arm): Node {
    if a.follow.Some? then a.follow.value else a.head
  }

  function ArmNodes(a: Arm): seq<Node> {
    [a.head] + (if a.follow.Some? then [a.follow.value] else [])
  }

  function AllArmNodes(arms: seq<Arm>): seq<Node> {
    if arms == [] then [] else ArmNodes(arms[0]) + AllArmNodes(arms[1..])
  }

  /** The yes task on row 0 and the no task on row 1, both one column past
      the split, named `yes` and `no`; a follow-up named `follow` goes one
      column further on row 1. */
  function TwoArms(yes: string, no: string, follow: Option<string>, split: nat): (arms: seq<Arm>)
    ensures |arms| == 2
    ensures arms[0].head == Node(ActivityYes, Task, yes, split + 1, 0) && arms[0].follow == None
    ensures arms[1].head == Node(ActivityNo, Task, no, split + 1, 1)
    ensures arms[1].follow.Some? <==> follow.Some?
    ensures follow.Some? ==> arms[1].follow.value == Node(ActivityNoFollow, Task, follow.value, split + 2, 1)
  {
    var yesTask := Node(ActivityYes, Task, yes, split + 1, 0);
    var noTask := Node(ActivityNo, Task, no, split + 1, 1);
    var next := if follow.Some? then Some(Node(ActivityNoFollow, Task, follow.value, noTask.column + 1, 1)) else None;
    [Arm(yesTask, None), Arm(noTask, next)]
  }

  /** The two-way decision's arms: the yes and no actions, and the follow-up
      on the no path when its text is non-empty, each labelled with
      `_format_label_with_role`. */
  function YesNoArms(b: Branch, split: nat, preface: string -> string): (arms: seq<Arm>)
    ensures |arms| == 2
    ensures arms[0].head.id == ActivityYes && arms[0].head.row == 0 && arms[0].follow == None
    ensures arms[1].head.id == ActivityNo && arms[1].head.row == 1
    ensures arms[0].head.column == split + 1 && arms[1].head.column == split + 1
    ensures arms[0].head.kind == Task && arms[0].head.name == FormatLabel(b.yesAction, preface)
    ensures arms[1].head.kind == Task && arms[1].head.name == FormatLabel(b.noAction, preface)
    ensures arms[1].follow.Some? <==> b.afterNoAction.Some? && b.afterNoAction.value != []
    ensures arms[1].follow.Some? ==>
              arms[1].follow.value.id == ActivityNoFollow && arms[1].follow.value.kind == Task
              && arms[1].follow.value.column == split + 2 && arms[1].follow.value.row == 1
              && arms[1].follow.value.name == FormatLabel(b.afterNoAction.value, preface)
  {
    var follow :=
      if b.afterNoAction.Some? && b.afterNoAction.value != [] then Some(FormatLabel(b.afterNoAction.value, preface))
      else None;
    TwoArms(FormatLabel(b.yesAction, preface), FormatLabel(b.noAction, preface), follow, split)
  }

  /** Arm `i` named `names[i]`: `Activity_B_<i+1>` on row `i`, one column
      past the split. */
  function NamedArms(names: seq<string>, split: nat): (arms: seq<Arm>)
    ensures |arms| == |names|
    ensures forall i :: 0 <= i < |arms| ==>
              arms[i].head.id == ActivityB(i + 1) && arms[i].head.kind == Task && arms[i].follow == None
              && arms[i].head.column == split + 1 && arms[i].head.row == i
    ensures forall i :: 0 <= i < |arms| ==> arms[i].head.name == names[i]
  {
    seq(|names|, i requires 0 <= i < |names| => Arm(Node(ActivityB(i + 1), Task, names[i], split + 1, i), None))
  }

  /** Arm `i` of a multi-way branch is `Activity_B_<i+1>` on row `i`, one
      column past the split. */
  function MultiArms(m: MultiBranch, split: nat, preface: string -> string): (arms: seq<Arm>)
    ensures |arms| == |m.branches|
    ensures forall i :: 0 <= i < |arms| ==>
              arms[i].head.id == ActivityB(i + 1) && arms[i].head.kind == Task && arms[i].follow == None
              && arms[i].head.column == split + 1 && arms[i].head.row == i
    ensures forall i :: 0 <= i < |arms| ==> arms[i].head.name == FormatLabel(m.branches[i], preface)
  {
    NamedArms(FormatLabels(m.branches, preface), split)
  }

  /** The largest column among `ns` (0 when there is none). */
  function MaxColumn(ns: seq<Node>): (m: nat)
    ensures forall i :: 0 <= i < |ns| ==> ns[i].column <= m
    ensures ns != [] ==> exists i :: 0 <= i < |ns| && ns[i].column == m
  {
    if ns == [] then 0
    else
      var rest := MaxColumn(ns[1..]);
      assert forall i :: 1 <= i < |ns| ==> ns[i] == ns[1..][i - 1];
      if ns[0].column >= rest then ns[0].column
      else
        assert ns[1..] != [];
        var j :| 0 <= j < |ns[1..]| && ns[1..][j].column == rest;
        assert ns[j + 1].column == rest;
        rest
  }

  /** The join gateway's column: one past the deepest arm task, or one past
      the split when there are no arms. */
  function JoinColumn(arms: seq<Arm>, split: nat): nat {
    (if arms != [] then MaxColumn(AllArmNodes(arms)) else split) + 1
  }

  /** Consecutive nodes linked in order. */
  function Chain(ns: seq<Node>): (ls: seq<Link>)
    ensures |ls| == if ns == [] then 0 else |ns| - 1
    ensures forall i :: 0 <= i < |ls| ==> ls[i] == Link(ns[i], ns[i + 1])
  {
    if |ns| <= 1 then [] else seq(|ns| - 1, i requires 0 <= i < |ns| - 1 => Link(ns[i], ns[i + 1]))
  }

  function FanOut(split: Node, arms: seq<Arm>): (ls: seq<Link>)
    ensures |ls| == |arms|
    ensures forall i :: 0 <= i < |ls| ==> ls[i] == Link(split, arms[i].head)
  {
    seq(|arms|, i requires 0 <= i < |arms| => Link(split, arms[i].head))
  }

  /** The links inside the arms: head to follow-up, where there is one. */
  function Inner(arms: seq<Arm>): seq<Link> {
    if arms == [] then []
    else (if arms[0].follow.Some? then [Link(arms[0].head, arms[0].follow.value)] else []) + Inner(arms[1..])
  }

  function FanIn(arms: seq<Arm>, join: Node): (ls: seq<Link>)
    ensures |ls| == |arms|
    ensures forall i :: 0 <= i < |ls| ==> ls[i] == Link(ArmEnd(arms[i]), join)
  {
    seq(|arms|, i requires 0 <= i < |arms| => Link(ArmEnd(arms[i]), join))
  }

  /** The flows of the gateway diagram, in the order `add_flow` is called:
      start to the first step (or the split), along the steps, last step to
      the split, split to each arm, inside the arms, each arm to the join,
      join to end. */
  function GatewayLinks(start: Node, pre: seq<Node>, split: Node, arms: seq<Arm>, join: Node, end: Node): seq<Link> {
    [Link(start, if pre != [] then pre[0] else split)]
    + Chain(pre)
    + (if pre != [] then [Link(pre[|pre| - 1], split)] else [])
    + FanOut(split, arms) + Inner(arms) + FanIn(arms, join)
    + [Link(join, end)]
  }

  /** Flows numbered from 1 in list order. */
  function Number(ls: seq<Link>): (fs: seq<Flow>)
    ensures |fs| == |ls|
    ensures forall i :: 0 <= i < |fs| ==> fs[i] == Flow(i + 1, ls[i].from.id, ls[i].to.id)
  {
    seq(|ls|, i requires 0 <= i < |ls| => Flow(i + 1, ls[i].from.id, ls[i].to.id))
  }

  /** The node a flow endpoint refers to: the first one with that id, as the
      layout's `bounds[...]` lookup finds it; `None` where it would fail. */
  function Lookup(ns: seq<Node>, id: NodeId): (r: Option<Node>)
    ensures r.Some? <==> exists i :: 0 <= i < |ns| && ns[i].id == id
    ensures r.Some? ==> r.value in ns && r.value.id == id
  {
    if ns == [] then None
    else if ns[0].id == id then Some(ns[0])
    else
      var r := Lookup(ns[1..], id);
      assert forall i :: 1 <= i < |ns| ==> ns[i] == ns[1..][i - 1];
      r
  }

  /** The parts of the gateway diagram, before they are flattened into a
      process. */
  datatype Parts = Parts(start: Node, pre: seq<Node>, split: Node, arms: seq<Arm>, join: Node, end: Node)

  function GatewayParts(preSteps: seq<string>, det: Detection, preface: string -> string): (g: Parts)
    requires !det.NoBranch? && Detected(det)
    ensures g.start == StartNode() && g.pre == StepTasks(preSteps, preface)
    ensures g.split == Node(GatewaySplit, Gateway, Question(det), |preSteps| + 1, 0)
    ensures g.join.id == GatewayJoin && g.join.kind == Gateway && g.join.name == [] && g.join.row == 0
    ensures g.end == Node(EndEvent, End, EndName, g.join.column + 1, 0)
    ensures g.arms == if det.Single? then YesNoArms(det.branch, |preSteps| + 1, preface)
                      else MultiArms(det.multi, |preSteps| + 1, preface)
    ensures g.join.column == JoinColumn(g.arms, |preSteps| + 1)
  {
    var pre := StepTasks(preSteps, preface);
    var s := SplitColumn(pre);
    var arms := if det.Single? then YesNoArms(det.branch, s, preface) else MultiArms(det.multi, s, preface);
    var join := Node(GatewayJoin, Gateway, "", JoinColumn(arms, s), 0);
    Parts(StartNode(), pre, Node(GatewaySplit, Gateway, Question(det), s, 0), arms, join,
          Node(EndEvent, End, EndName, join.column + 1, 0))
  }

  function PartsNodes(g: Parts): seq<Node> {
    [g.start] + g.pre + [g.split] + AllArmNodes(g.arms) + [g.join, g.end]
  }

  function PartsLinks(g: Parts): seq<Link> {
    GatewayLinks(g.start, g.pre, g.split, g.arms, g.join, g.end)
  }

  /** The diagram of a text with a detected branch. */
  function GatewayProcess(preSteps: seq<string>, det: Detection, preface: string -> string): Process
    requires !det.NoBranch? && Detected(det)
  {
    var g := GatewayParts(preSteps, det, preface);
    Process(PartsNodes(g), Number(PartsLinks(g)))
  }

  /** The nodes of the fallback linear diagram: start, one task per step,
      end, with the column equal to the position. */
  function LinearNodes(steps: seq<string>, preface: string -> string): (ns: seq<Node>)
    ensures |ns| == |steps| + 2
    ensures forall i :: 0 <= i < |ns| ==> ns[i].column == i && ns[i].row == 0
    ensures ns[0] == StartNode() && ns[|steps| + 1] == Node(EndEvent, End, EndName, |steps| + 1, 0)
    ensures forall i :: 1 <= i <= |steps| ==>
              ns[i].id == Activity(i) && ns[i].kind == Task && ns[i].name == FormatLabel(steps[i - 1], preface)
  {
    var ts := StepTasks(steps, preface);
    var ns := [StartNode()] + ts + [Node(EndEvent, End, EndName, |steps| + 1, 0)];
    assert forall i :: 1 <= i <= |steps| ==> ns[i] == ts[i - 1];
    ns
  }

  /** The fallback linear diagram: `Flow_i` runs from node `i-1` to node `i`. */
  function LinearProcess(steps: seq<string>, preface: string -> string): Process {
    var ns := LinearNodes(steps, preface);
    Process(ns, Number(Chain(ns)))
  }

  /** `convert_text_to_bpmn` up to XML serialisation. `steps` is what step
      extraction found in the whole text, `preSteps` what it found before the
      first "اگر", `det` what branch detection found, and `preface` the
      removal of the "فرایند ... به شرح زیر" preamble from labels. */
  function Convert(steps: seq<string>, preSteps: seq<string>, det: Detection, preface: string -> string): (r: Result<Process, string>)
    requires Detected(det)
    ensures r.Failure? <==> steps == []
    ensures r.Failure? ==> r.error == NoStepsMessage
    ensures r.Success? && det.NoBranch? ==> |r.value.nodes| == |steps| + 2 && |r.value.flows| == |steps| + 1
    ensures r.Success? && det.NoBranch? ==> r.value == LinearProcess(steps, preface)
    ensures r.Success? && !det.NoBranch? ==> r.value == GatewayProcess(preSteps, det, preface)
  {
    if steps == [] then Failure(NoStepsMessage)
    else if det.NoBranch? then Success(LinearProcess(steps, preface))
    else Success(GatewayProcess(preSteps, det, preface))
  }
}

=== FILE: ids.dfy ===
/** The deterministic element ids `convert_text_to_bpmn` gives the diagram's
    nodes and sequence flows. */
module Ids {
  import opened Text

  /** Every node id the converter can emit. Activity and branch indexes are
      the 1-based numbers written into the id. */
  datatype NodeId =
    | StartEvent
    | EndEvent
    | Activity(index: nat)
    | ActivityYes
    | ActivityNo
    | ActivityNoFollow
    | ActivityB(index: nat)
    | GatewaySplit
    | GatewayJoin

  /** The id as written into the diagram. */
  function IdText(id: NodeId): string {
    match id
    case StartEvent => "StartEvent_1"
    case EndEvent => "EndEvent_1"
    case Activity(k) => "Activity_" + Decimal(k)
    case ActivityYes => "Activity_Yes_1"
    case ActivityNo => "Activity_No_1"
    case ActivityNoFollow => "Activity_No_2"
    case ActivityB(k) => "Activity_B_" + Decimal(k)
    case GatewaySplit => "Gateway_Split_1"
    case GatewayJoin => "Gateway_Join_1"
  }

  /** The id of the `k`-th sequence flow. */
  function FlowText(k: nat): string {
    "Flow_" + Decimal(k)
  }

  /** The character after the common prefix `Activity_` tells the activity
      kinds apart: a digit for a plain step, a letter for the branch arms. */
  lemma ActivityTag(id: NodeId)
    requires id.Activity? || id.ActivityYes? || id.ActivityNo? || id.ActivityNoFollow? || id.ActivityB?
    ensures |IdText(id)| > 9 && IdText(id)[..9] == "Activity_"
    ensures id.Activity? <==> '0' <= IdText(id)[9] <= '9'
    ensures id.ActivityB? <==> IdText(id)[9] == 'B'
  {
  }

  /** The activity kinds are exactly the ids spelled with a leading `A`. */
  lemma FirstLetter(id: NodeId)
    ensures |IdText(id)| > 9
    ensures IdText(id)[0] == 'A' <==> id.Activity? || id.ActivityYes? || id.ActivityNo? || id.ActivityNoFollow? || id.ActivityB?
  {
  }

  /** Distinct nodes get distinct id strings. */
  lemma IdTextInjective(a: NodeId, b: NodeId)
    ensures IdText(a) == IdText(b) <==> a == b
  {
    FirstLetter(a);
    FirstLetter(b);
    if IdText(a) == IdText(b) && IdText(a)[0] == 'A' {
      var s := IdText(a);
      ActivityTag(a);
      ActivityTag(b);
      if a.Activity? && b.Activity? {
        assert s[9..] == Decimal(a.index) == Decimal(b.index);
        DecimalInjective(a.index, b.index);
      } else if a.ActivityB? && b.ActivityB? {
        assert s[11..] == Decimal(a.index) == Decimal(b.index);
        DecimalInjective(a.index, b.index);
      }
    }
  }

  /** Distinct flow numbers give distinct flow ids. */
  lemma FlowTextInjective(m: nat, n: nat)
    ensures FlowText(m) == FlowText(n) <==> m == n
  {
    if FlowText(m) == FlowText(n) {
      assert FlowText(m)[5..] == Decimal(m);
      assert FlowText(n)[5..] == Decimal(n);
      DecimalInjective(m, n);
    }
  }

  /** Flow ids never collide with node ids. */
  lemma FlowTextNotNode(k: nat, id: NodeId)
    ensures FlowText(k) != IdText(id)
  {
    assert FlowText(k)[0] == 'F';
  }
}

=== FILE: labels.dfy ===
/** Task labels: the role header of `_label_with_role` and the greedy word wrap
    of `_wrap_label`, composed by `_format_label_with_role`. */
module Labels {
  import opened Wrappers
  import opened Text

  /** The default `max_chars` of `_wrap_label`. */
  const MaxChars := 24

  /** The role phrases `_label_with_role` looks for, the more specific first. */
  const Roles: seq<string> := [
    "کارشناس ارشد پشتیبانی ستاد",
    "کارشناس ارشد",
    "کارشناس بررسی شکایت",
    "کارشناس پشتیبانی",
    "کارشناس شکایت ستاد",
    "کارشناس ستاد",
    "کارشناس اولیه",
    "کارشناس",
    "کارمند",
    "کاربر"
  ]

  /** What separates the role header from the action: a line holding an em dash. */
  const Divider: string := "\n\U{2014}\n"

  /** The characters `strip(" :،,-")` removes around the action text. */
  predicate IsLabelPunct(c: char) {
    c == ' ' || c == ':' || c == '\U{060C}' || c == ',' || c == '-'
  }

  // ---------------------------------------------------------------------------
  // _wrap_label

  /** A line of a wrapped label, given as its words: they are joined by one space. */
  function LineText(g: seq<string>): string {
    JoinWith(g, " ")
  }

  function LineTexts(gs: seq<seq<string>>): seq<string> {
    seq(|gs|, i requires 0 <= i < |gs| => LineText(gs[i]))
  }

  /** A line respects the width: at most `MaxChars` characters, or one word. */
  predicate Fits(g: seq<string>) {
    |LineText(g)| <= MaxChars || |g| == 1
  }

  /** The line `g` cannot take the word `w` as well without exceeding the width. */
  predicate Full(g: seq<string>, w: string) {
    |LineText(g)| + (if g == [] then 0 else 1) + |w| > MaxChars
  }

  /** The variables of `_wrap_label`'s loop: the finished `lines`, the words of
      the `current` line and its length `current_len`. */
  datatype Packing = Packing(lines: seq<seq<string>>, current: seq<string>, currentLen: int)

  /** What the loop keeps true: the length is that of the current line, every
      line fits, only the first line may be empty, and every finished line was
      closed because the next word did not fit. */
  predicate PackingInv(p: Packing) {
    && p.currentLen == |LineText(p.current)|
    && Fits(p.current)
    && WellWrapped(p.lines)
    && (p.lines != [] ==> p.current != [] && Full(p.lines[|p.lines| - 1], p.current[0]))
  }

  /** Lines as `_wrap_label` leaves them: every line fits, only the first may
      be empty, and each line ends only where the next line's first word would
      not have fitted on it. */
  predicate WellWrapped(ls: seq<seq<string>>) {
    && (forall i :: 0 <= i < |ls| ==> Fits(ls[i]))
    && (forall i :: 0 < i < |ls| ==> ls[i] != [])
    && (forall i :: 0 < i < |ls| ==> Full(ls[i - 1], ls[i][0]))
  }

  /** Closing the current line keeps the lines well wrapped. */
  lemma CloseLine(p: Packing)
    requires PackingInv(p)
    ensures WellWrapped(p.lines + [p.current])
  {
    var ls := p.lines + [p.current];
    forall i | 0 <= i < |ls|
      ensures Fits(ls[i])
    {
      if i < |p.lines| { assert ls[i] == p.lines[i]; }
    }
    forall i | 0 < i < |ls|
      ensures ls[i] != [] && Full(ls[i - 1], ls[i][0])
    {
      if i < |p.lines| {
        assert ls[i] == p.lines[i] && ls[i - 1] == p.lines[i - 1];
      } else {
        assert ls[i] == p.current && ls[i - 1] == p.lines[|p.lines| - 1];
      }
    }
  }

  /** One iteration of the loop: the word joins the current line if it fits,
      otherwise the current line is closed and the word starts the next one. */
  function PackWord(p: Packing, word: string): Packing {
    var sep := if p.current != [] then 1 else 0;
    if p.currentLen + sep + |word| > MaxChars then
      Packing(p.lines + [p.current], [word], |word|)
    else
      Packing(p.lines, p.current + [word], p.currentLen + sep + |word|)
  }

  lemma LineTextAppend(g: seq<string>, w: string)
    ensures LineText(g + [w]) == LineText(g) + (if g == [] then "" else " ") + w
    decreases |g|
  {
    if |g| == 1 {
      assert (g + [w])[1..] == [w];
      assert LineText(g) == g[0];
      assert LineText(g + [w]) == g[0] + " " + LineText([w]);
    } else if |g| > 1 {
      assert (g + [w])[1..] == g[1..] + [w];
      LineTextAppend(g[1..], w);
    }
  }

  lemma FlattenAppend<T>(xss: seq<seq<T>>, xs: seq<T>)
    ensures Flatten(xss + [xs]) == Flatten(xss) + xs
    decreases |xss|
  {
    if xss != [] {
      assert (xss + [xs])[1..] == xss[1..] + [xs];
      FlattenAppend(xss[1..], xs);
    }
  }

  lemma PackWordKeeps(p: Packing, word: string)
    requires PackingInv(p)
    ensures PackingInv(PackWord(p, word))
    ensures Flatten(PackWord(p, word).lines) + PackWord(p, word).current == Flatten(p.lines) + p.current + [word]
    ensures PackWord(p, word).current != []
    ensures |p.lines| <= |PackWord(p, word).lines| && PackWord(p, word).lines[..|p.lines|] == p.lines
    ensures p.current != [] ==> forall i :: |p.lines| <= i < |PackWord(p, word).lines| ==> PackWord(p, word).lines[i] != []
  {
    var sep := if p.current != [] then 1 else 0;
    if p.currentLen + sep + |word| > MaxChars {
      CloseLineKeeps(p, word);
    } else {
      ExtendLineKeeps(p, word);
    }
  }

  lemma CloseLineKeeps(p: Packing, word: string)
    requires PackingInv(p)
    requires p.currentLen + (if p.current != [] then 1 else 0) + |word| > MaxChars
    ensures PackingInv(Packing(p.lines + [p.current], [word], |word|))
    ensures Flatten(p.lines + [p.current]) + [word] == Flatten(p.lines) + p.current + [word]
  {
    var ls := p.lines + [p.current];
    FlattenAppend(p.lines, p.current);
    assert LineText([word]) == word;
    CloseLine(p);
    assert Full(ls[|ls| - 1], word);
  }

  lemma ExtendLineKeeps(p: Packing, word: string)
    requires PackingInv(p)
    requires p.currentLen + (if p.current != [] then 1 else 0) + |word| <= MaxChars
    ensures PackingInv(Packing(p.lines, p.current + [word], p.currentLen + (if p.current != [] then 1 else 0) + |word|))
  {
    LineTextAppend(p.current, word);
    if p.lines != [] {
      assert (p.current + [word])[0] == p.current[0];
    }
  }

  /** The loop of `_wrap_label` over the remaining `words`. */
  function PackWords(p: Packing, words: seq<string>): (r: Packing)
    requires PackingInv(p)
    ensures PackingInv(r)
    ensures Flatten(r.lines) + r.current == Flatten(p.lines) + p.current + words
    ensures words != [] ==> r.current != []
    decreases |words|
  {
    if words == [] then p
    else
      PackWordKeeps(p, words[0]);
      var r := PackWords(PackWord(p, words[0]), words[1..]);
      assert words == [words[0]] + words[1..];
      r
  }

  /** Packing only appends lines, and none of them is empty once a line has
      been started. */
  lemma {:induction false} PackWordsLines(p: Packing, words: seq<string>)
    requires PackingInv(p)
    ensures |p.lines| <= |PackWords(p, words).lines|
    ensures PackWords(p, words).lines[..|p.lines|] == p.lines
    ensures p.current != [] ==>
              forall i :: |p.lines| <= i < |PackWords(p, words).lines| ==> PackWords(p, words).lines[i] != []
    decreases |words|
  {
    if words != [] {
      var q := PackWord(p, words[0]);
      PackWordKeeps(p, words[0]);
      PackWordsLines(q, words[1..]);
      var r := PackWords(q, words[1..]);
      assert r == PackWords(p, words);
      assert r.lines[..|p.lines|] == r.lines[..|q.lines|][..|p.lines|];
    }
  }

  /** The lines `_wrap_label` makes of `words`, each given as its words. The
      lines hold the words in order, each fits, each but the last was closed
      only because the next word would not fit, and only the first line can be
      empty. */
  function WrapGroups(words: seq<string>): (gs: seq<seq<string>>)
    ensures Flatten(gs) == words
    ensures WellWrapped(gs)
    ensures gs == [] <==> words == []
  {
    assert LineText([]) == [];
    var p := PackWords(Packing([], [], 0), words);
    if p.current != [] then
      FlattenAppend(p.lines, p.current);
      CloseLine(p);
      p.lines + [p.current]
    else
      assert p.lines == [];
      p.lines
  }

  /** The quirk of `_wrap_label`: an over-long first word closes the still
      empty first line, so the label then starts with an empty line; otherwise
      no line is empty. */
  lemma {:induction false} WrapFirstLineEmpty(words: seq<string>)
    requires words != []
    ensures WrapGroups(words) != []
    ensures WrapGroups(words)[0] == [] <==> |words[0]| > MaxChars
  {
    var init := Packing([], [], 0);
    var q := PackWord(init, words[0]);
    assert LineText([]) == [];
    PackWordKeeps(init, words[0]);
    var r := PackWords(q, words[1..]);
    PackWordsLines(q, words[1..]);
    assert PackWords(init, words) == r;
    if |words[0]| > MaxChars {
      assert q.lines == [[]];
      assert r.lines[..1] == [[]];
      assert r.lines[0] == [];
    } else {
      assert q.lines == [] && q.current != [];
      if r.lines != [] {
        assert r.lines[0] != [];
      }
    }
  }

  predicate AllWords(xs: seq<string>) {
    forall i :: 0 <= i < |xs| ==> IsWord(xs[i])
  }

  lemma {:induction false} AllWordsOfFlatten(gs: seq<seq<string>>)
    requires AllWords(Flatten(gs))
    ensures forall i :: 0 <= i < |gs| ==> AllWords(gs[i])
    decreases |gs|
  {
    if gs != [] {
      var f := Flatten(gs);
      assert f == gs[0] + Flatten(gs[1..]);
      assert forall j :: 0 <= j < |gs[0]| ==> f[j] == gs[0][j];
      assert forall j :: 0 <= j < |Flatten(gs[1..])| ==> f[|gs[0]| + j] == Flatten(gs[1..])[j];
      AllWordsOfFlatten(gs[1..]);
      assert forall i :: 1 <= i < |gs| ==> gs[i] == gs[1..][i - 1];
    }
  }

  lemma {:induction false} FlatWordsOfLines(gs: seq<seq<string>>)
    requires forall i :: 0 <= i < |gs| ==> AllWords(gs[i])
    ensures FlatWords(LineTexts(gs)) == Flatten(gs)
    decreases |gs|
  {
    if gs != [] {
      WordsJoinRoundTrip(gs[0], " ");
      assert LineTexts(gs)[1..] == LineTexts(gs[1..]);
      FlatWordsOfLines(gs[1..]);
    }
  }

  /** `_wrap_label(text)`: the words of `text` packed greedily into lines of at
      most `MaxChars` characters. It keeps every word, in order and unbroken,
      and returns a text without words unchanged. */
  function WrapLabel(text: string): (r: string)
    ensures Words(r) == Words(text)
    ensures Words(text) == [] ==> r == text
  {
    var words := Words(text);
    if words == [] then text
    else
      var gs := WrapGroups(words);
      AllWordsOfFlatten(gs);
      WordsOfJoin(LineTexts(gs), "\n");
      FlatWordsOfLines(gs);
      JoinWith(LineTexts(gs), "\n")
  }

  /** `label.count("\n") + 1`: the number of lines the layout reserves room for. */
  function LineCount(text: string): (n: nat)
    ensures n == |SplitOn(text, '\n')|
    ensures n >= 1
  {
    CountChar(text, '\n') + 1
  }

  lemma {:induction false} NoNewlineInLine(g: seq<string>)
    requires AllWords(g)
    ensures '\n' !in LineText(g)
    decreases |g|
  {
    if |g| > 1 {
      NoNewlineInLine(g[1..]);
      assert LineText(g) == g[0] + " " + LineText(g[1..]);
    }
  }

  /** Reading the wrapped label back line by line gives the packed lines. */
  lemma {:induction false} WrapLabelSplit(text: string)
    requires Words(text) != []
    ensures var gs := WrapGroups(Words(text));
      && SplitOn(WrapLabel(text), '\n') == LineTexts(gs)
      && forall i :: 0 <= i < |gs| ==> Words(LineTexts(gs)[i]) == gs[i]
  {
    var gs := WrapGroups(Words(text));
    AllWordsOfFlatten(gs);
    var ls := LineTexts(gs);
    forall i | 0 <= i < |gs|
      ensures '\n' !in ls[i] && Words(ls[i]) == gs[i]
    {
      NoNewlineInLine(gs[i]);
      WordsJoinRoundTrip(gs[i], " ");
    }
    SplitOnJoin(ls, '\n');
  }

  /** The lines of a wrapped label, read back by splitting on newlines: each is
      its words joined by single spaces, each is at most `MaxChars` characters
      long or a single word, only the first can be empty (exactly when the
      first word is longer than `MaxChars`), a line ends only where the next
      word would not fit, and the label has as many lines as `LineCount` says. */
  lemma WrapLabelLines(text: string)
    requires Words(text) != []
    ensures var lines := SplitOn(WrapLabel(text), '\n');
      && LineCount(WrapLabel(text)) == |lines|
      && (forall i :: 0 <= i < |lines| ==> lines[i] == JoinWith(Words(lines[i]), " "))
      && (forall i :: 0 <= i < |lines| ==> |lines[i]| <= MaxChars || |Words(lines[i])| == 1)
      && (forall i :: 0 < i < |lines| ==> lines[i] != [])
      && (forall i :: 0 < i < |lines| ==>
            Words(lines[i]) != [] &&
            |lines[i - 1]| + (if lines[i - 1] == [] then 0 else 1) + |Words(lines[i])[0]| > MaxChars)
      && (lines[0] == [] <==> |Words(text)[0]| > MaxChars)
  {
    var words := Words(text);
    var gs := WrapGroups(words);
    WrapLabelSplit(text);
    WrapFirstLineEmpty(words);
    var ls := LineTexts(gs);
    assert SplitOn(WrapLabel(text), '\n') == ls;
    forall i | 0 <= i < |ls|
      ensures ls[i] == JoinWith(Words(ls[i]), " ")
      ensures |ls[i]| <= MaxChars || |Words(ls[i])| == 1
    {
      assert Fits(gs[i]);
    }
    forall i | 0 < i < |ls|
      ensures ls[i] != [] && Words(ls[i]) != []
      ensures |ls[i - 1]| + (if ls[i - 1] == [] then 0 else 1) + |Words(ls[i])[0]| > MaxChars
    {
      assert gs[i] != [] && Full(gs[i - 1], gs[i][0]);
    }
    assert ls[0] == [] <==> gs[0] == [];
  }

  // ---------------------------------------------------------------------------
  // _label_with_role

  /** The index of the first role of `Roles`, from `from` on, that occurs in `text`. */
  function FindRole(text: string, from: nat): (r: Option<nat>)
    requires from <= |Roles|
    ensures r.Some? ==> from <= r.value < |Roles| && Contains(text, Roles[r.value])
                        && forall j :: from <= j < r.value ==> !Contains(text, Roles[j])
    ensures r.None? ==> forall j :: from <= j < |Roles| ==> !Contains(text, Roles[j])
    decreases |Roles| - from
  {
    if from == |Roles| then None
    else if Contains(text, Roles[from]) then Some(from)
    else FindRole(text, from + 1)
  }

  /** `Roles[i]` is the header of a label for `text`: it occurs in `text` and
      no role before it in the list does. */
  predicate IsHeaderRole(text: string, i: int) {
    0 <= i < |Roles| && Contains(text, Roles[i]) && forall j :: 0 <= j < i ==> !Contains(text, Roles[j])
  }

  /** `_label_with_role(text)`. The header is the first role in list order that
      occurs in the text; every occurrence of it that `str.replace` finds is
      removed, and the label is the role, the divider line and the action
      stripped of `" :،,-"`. Without a role the label is the stripped action.
      `preface` stands for the removal of a generic "فرایند ... به شرح زیر
      است:" preface, which this model leaves uninterpreted. */
  function LabelWithRole(text: string, preface: string -> string): (r: string)
    ensures forall i :: IsHeaderRole(text, i) ==>
              r == Roles[i] + Divider + Trim(preface(ReplaceAll(text, Roles[i], "")), IsLabelPunct)
    ensures (forall i :: 0 <= i < |Roles| ==> !Contains(text, Roles[i])) ==>
              r == Trim(preface(text), IsLabelPunct)
  {
    match FindRole(text, 0)
    case Some(i) => Roles[i] + Divider + Trim(preface(ReplaceAll(text, Roles[i], "")), IsLabelPunct)
    case None => Trim(preface(text), IsLabelPunct)
  }

  /** `_format_label_with_role(step)`: the role header, then the wrap. */
  function FormatLabel(text: string, preface: string -> string): string {
    WrapLabel(LabelWithRole(text, preface))
  }

  /** The wrap splits on all whitespace, so the divider's line breaks do not
      survive it: the words of a formatted label are the role's words, the em
      dash, and the action's words, packed like any other words. */
  lemma FormatLabelWords(text: string, preface: string -> string, i: int)
    requires IsHeaderRole(text, i)
    ensures Words(FormatLabel(text, preface)) ==
            Words(Roles[i]) + ["\U{2014}"] + Words(Trim(preface(ReplaceAll(text, Roles[i], "")), IsLabelPunct))
  {
    var action := Trim(preface(ReplaceAll(text, Roles[i], "")), IsLabelPunct);
    assert LabelWithRole(text, preface) == Roles[i] + Divider + action;
    WordsAroundDivider(Roles[i], action);
  }

  lemma WordsAroundDivider(role: string, action: string)
    ensures Words(role + Divider + action) == Words(role) + ["\U{2014}"] + Words(action)
  {
    var dash: string := ['\U{2014}'];
    var tail := dash + ['\n'] + action;
    assert role + Divider + action == role + ['\n'] + tail;
    WordsSplitAtSpace(role, '\n', tail);
    WordsSplitAtSpace(dash, '\n', action);
    WordsOfWord(dash);
  }
}

=== FILE: layout.dfy ===
/** The diagram geometry of `_build_diagrams` and `_build_diagrams_complex`:
    one bounds rectangle per node on a grid of 220-unit columns and 160-unit
    rows, and one two-point line per flow, from the middle of the source's
    right side to the middle of the target's left side. */
module Layout {
  import opened Wrappers
  import opened Text
  import opened Labels
  import opened Branches
  import opened Ids
  import opened Graph
  import opened Structure

  const StartX: int := 100
  const BaseY: int := 150
  const ColumnSpacing: int := 220
  const RowSpacing: int := 160
  const EventSize: nat := 36
  const GatewaySize: nat := 50
  const TaskWidth: nat := 160
  const TaskBaseHeight: nat := 80
  const LineHeight: nat := 18

  datatype Bounds = Bounds(x: int, y: int, width: nat, height: nat)
  datatype Point = Point(x: int, y: int)
  datatype Shape = Shape(id: NodeId, bounds: Bounds)

  /** The line drawn for flow `Flow_<flow>`. */
  datatype Edge = Edge(flow: nat, from: Point, to: Point)

  /** A task's height for a label of `lines` lines: room for two lines, and
      18 more for every further line. */
  function TaskHeight(lines: int): (h: nat)
    ensures h % 2 == 0 && h >= TaskBaseHeight
    ensures h <= RowSpacing <==> lines <= 6
    ensures lines <= 2 ==> h == TaskBaseHeight
  {
    var l := if lines < 1 then 1 else lines;
    TaskBaseHeight + LineHeight * (if l - 2 < 0 then 0 else l - 2)
  }

  /** Every label line beyond the second adds one line height. */
  lemma TaskHeightStep(lines: int)
    requires lines >= 2
    ensures TaskHeight(lines + 1) == TaskHeight(lines) + LineHeight
  {
  }

  /** The rectangle of a node of `kind` on the grid cell (`column`, `row`).
      Tasks are shifted left by `160 / 2 - 18` so that the flows line up. */
  function Place(kind: Kind, lines: int, column: nat, row: nat): (b: Bounds)
    ensures b.y == BaseY + RowSpacing * row
    ensures kind != Task ==> b.x == StartX + ColumnSpacing * column && b.width == b.height
    ensures kind == Task ==> b.x == StartX + ColumnSpacing * column - 62 && b.width == TaskWidth
    ensures kind == Start || kind == End ==> b.width == EventSize
    ensures kind == Gateway ==> b.width == GatewaySize
    ensures kind == Task ==> b.height == TaskHeight(lines)
  {
    var x := StartX + ColumnSpacing * column;
    var y := BaseY + RowSpacing * row;
    match kind
    case Start => Bounds(x, y, EventSize, EventSize)
    case End => Bounds(x, y, EventSize, EventSize)
    case Gateway => Bounds(x, y, GatewaySize, GatewaySize)
    case Task => Bounds(x - (TaskWidth / 2 - 18), y, TaskWidth, TaskHeight(lines))
  }

  /** The number of lines of a node's label, `label.count("\n") + 1`. */
  function Lines(n: Node): nat {
    LineCount(n.name)
  }

  function NodeShape(n: Node): Shape {
    Shape(n.id, Place(n.kind, Lines(n), n.column, n.row))
  }

  /** Where a flow leaves its source: the middle of the right side. */
  function Exit(b: Bounds): Point {
    Point(b.x + b.width, b.y + b.height / 2)
  }

  /** Where a flow enters its target: the middle of the left side. */
  function Entry(b: Bounds): Point {
    Point(b.x, b.y + b.height / 2)
  }

  /** The lines of the flows, looking both ends up among the nodes; `None`
      where the source's `bounds[...]` lookup would fail. */
  function FlowEdges(ns: seq<Node>, fs: seq<Flow>): (r: Option<seq<Edge>>)
    ensures r.Some? <==> forall k :: 0 <= k < |fs| ==>
              Lookup(ns, fs[k].source).Some? && Lookup(ns, fs[k].target).Some?
    ensures r.Some? ==> |r.value| == |fs| && forall k :: 0 <= k < |fs| ==>
              r.value[k] == Edge(fs[k].index,
                                 Exit(NodeShape(Lookup(ns, fs[k].source).value).bounds),
                                 Entry(NodeShape(Lookup(ns, fs[k].target).value).bounds))
  {
    if fs == [] then Some([])
    else
      var src, dst := Lookup(ns, fs[0].source), Lookup(ns, fs[0].target);
      var rest := FlowEdges(ns, fs[1..]);
      assert forall k :: 1 <= k < |fs| ==> fs[k] == fs[1..][k - 1];
      if src.None? || dst.None? || rest.None? then None
      else
        var e := Edge(fs[0].index, Exit(NodeShape(src.value).bounds), Entry(NodeShape(dst.value).bounds));
        Some([e] + rest.value)
  }

  /** One shape per node, in node order. */
  function Shapes(ns: seq<Node>): (r: seq<Shape>)
    ensures |r| == |ns| && forall i :: 0 <= i < |ns| ==> r[i] == NodeShape(ns[i])
  {
    seq(|ns|, i requires 0 <= i < |ns| => NodeShape(ns[i]))
  }

  /** `_build_diagrams_complex`: shapes in node order and flow lines in flow
      order. */
  function GridLayout(p: Process): (r: Option<(seq<Shape>, seq<Edge>)>)
    ensures r.Some? <==> forall k :: 0 <= k < |p.flows| ==>
              Lookup(p.nodes, p.flows[k].source).Some? && Lookup(p.nodes, p.flows[k].target).Some?
    ensures r.Some? ==> |r.value.0| == |p.nodes| && |r.value.1| == |p.flows|
    ensures r.Some? ==> forall i :: 0 <= i < |p.nodes| ==> r.value.0[i].id == p.nodes[i].id
    ensures r.Some? ==> forall i :: 0 <= i < |p.nodes| ==>
              r.value.0[i].bounds == Place(p.nodes[i].kind, Lines(p.nodes[i]), p.nodes[i].column, p.nodes[i].row)
    ensures r.Some? ==> forall k :: 0 <= k < |p.flows| ==>
              r.value.1[k] == Edge(p.flows[k].index,
                                   Exit(NodeShape(Lookup(p.nodes, p.flows[k].source).value).bounds),
                                   Entry(NodeShape(Lookup(p.nodes, p.flows[k].target).value).bounds))
  {
    match FlowEdges(p.nodes, p.flows)
    case None => None
    case Some(edges) => Some((Shapes(p.nodes), edges))
  }

  // ---------------------------------------------------------------------------
  // the linear fallback

  predicate StartsWith(s: string, prefix: string) {
    |prefix| <= |s| && s[..|prefix|] == prefix
  }

  /** `_build_diagrams` places the node at position `index` in column
      `index` of row 0, and tells events from tasks by the id's prefix. */
  function LinearShape(n: Node, index: nat): Shape {
    var text := IdText(n.id);
    var x := StartX + ColumnSpacing * index;
    if StartsWith(text, "StartEvent") || StartsWith(text, "EndEvent") then
      Shape(n.id, Bounds(x, BaseY, EventSize, EventSize))
    else
      Shape(n.id, Bounds(x - (TaskWidth / 2 - 18), BaseY, TaskWidth, TaskHeight(Lines(n))))
  }

  /** `_build_diagrams`: flow `k` runs from the node at position `k` to the one
      at position `k + 1`. The caller passes one flow fewer than nodes. */
  function LinearLayout(ns: seq<Node>, flowCount: nat): (r: (seq<Shape>, seq<Edge>))
    requires flowCount < |ns|
    ensures |r.0| == |ns| && |r.1| == flowCount
    ensures forall i :: 0 <= i < |ns| ==> r.0[i] == LinearShape(ns[i], i)
    ensures forall k :: 0 <= k < flowCount ==> r.1[k] == Edge(k + 1, Exit(r.0[k].bounds), Entry(r.0[k + 1].bounds))
  {
    var shapes := seq(|ns|, i requires 0 <= i < |ns| => LinearShape(ns[i], i));
    var edges := seq(flowCount, k requires 0 <= k < flowCount =>
                       Edge(k + 1, Exit(shapes[k].bounds), Entry(shapes[k + 1].bounds)));
    (shapes, edges)
  }

  // ---------------------------------------------------------------------------
  // properties

  /** Two rectangles that share no interior point. */
  predicate Disjoint(a: Bounds, b: Bounds) {
    a.x + a.width <= b.x || b.x + b.width <= a.x || a.y + a.height <= b.y || b.y + b.height <= a.y
  }

  /** Every node's rectangle stays inside its column's band, from 62 left of
      the column's origin to 98 right of it, and within its row's band unless
      it is a task with more than six label lines. */
  lemma PlaceExtent(kind: Kind, lines: int, column: nat, row: nat)
    ensures var b := Place(kind, lines, column, row);
            && StartX + ColumnSpacing * column - 62 <= b.x
            && b.x + b.width <= StartX + ColumnSpacing * column + 98
            && b.y == BaseY + RowSpacing * row && b.height % 2 == 0
            && (kind != Task || lines <= 6 ==> b.height <= RowSpacing)
  {
  }

  /** Flow lines attach at the exact vertical middle of both rectangles:
      every height is even, so the halving the source does in floating point
      loses nothing. */
  lemma AttachMiddle(n: Node)
    ensures var b := NodeShape(n).bounds;
            2 * (Exit(b).y - b.y) == b.height && 2 * (Entry(b).y - b.y) == b.height
  {
    PlaceExtent(n.kind, Lines(n), n.column, n.row);
  }

  /** The layout of a well-formed diagram exists, and every flow line runs
      from left to right, at least 60 units long horizontally. */
  lemma EdgesRightward(p: Process)
    requires WellFormed(p)
    ensures GridLayout(p).Some?
    ensures forall k :: 0 <= k < |p.flows| ==>
              GridLayout(p).value.1[k].flow == k + 1
              && GridLayout(p).value.1[k].from.x + 60 <= GridLayout(p).value.1[k].to.x
  {
    var edges := FlowEdges(p.nodes, p.flows);
    assert edges.Some?;
    forall k | 0 <= k < |p.flows|
      ensures edges.value[k].from.x + 60 <= edges.value[k].to.x
    {
      var src, dst := Lookup(p.nodes, p.flows[k].source).value, Lookup(p.nodes, p.flows[k].target).value;
      PlaceExtent(src.kind, Lines(src), src.column, src.row);
      PlaceExtent(dst.kind, Lines(dst), dst.column, dst.row);
    }
  }

  /** The labels fit their rows: no task label has more than six lines. */
  predicate ShortLabels(p: Process) {
    forall i :: 0 <= i < |p.nodes| ==> p.nodes[i].kind == Task ==> Lines(p.nodes[i]) <= 6
  }

  /** Nodes on different grid cells get disjoint rectangles when their labels
      fit their rows. */
  lemma CellsApart(m: Node, n: Node)
    requires m.column != n.column || m.row != n.row
    requires m.kind == Task ==> Lines(m) <= 6
    requires n.kind == Task ==> Lines(n) <= 6
    ensures Disjoint(NodeShape(m).bounds, NodeShape(n).bounds)
  {
    PlaceExtent(m.kind, Lines(m), m.column, m.row);
    PlaceExtent(n.kind, Lines(n), n.column, n.row);
    if m.column != n.column {
      assert m.column < n.column ==> ColumnSpacing * m.column + ColumnSpacing <= ColumnSpacing * n.column;
      assert n.column < m.column ==> ColumnSpacing * n.column + ColumnSpacing <= ColumnSpacing * m.column;
    } else {
      assert m.row < n.row ==> RowSpacing * m.row + RowSpacing <= RowSpacing * n.row;
      assert n.row < m.row ==> RowSpacing * n.row + RowSpacing <= RowSpacing * m.row;
    }
  }

  /** In a well-formed diagram whose labels fit their rows, no two shapes
      overlap. */
  lemma ShapesApart(p: Process)
    requires WellFormed(p) && ShortLabels(p)
    ensures forall i, j :: 0 <= i < j < |p.nodes| ==>
              Disjoint(NodeShape(p.nodes[i]).bounds, NodeShape(p.nodes[j]).bounds)
  {
    forall i, j | 0 <= i < j < |p.nodes|
      ensures Disjoint(NodeShape(p.nodes[i]).bounds, NodeShape(p.nodes[j]).bounds)
    {
      CellsApart(p.nodes[i], p.nodes[j]);
    }
  }

  /** A task directly above another in the same column stays clear of it
      exactly when its label has at most six lines: a seventh line makes it
      170 high, more than the 160 between rows. */
  lemma StackedTasks(upper: int, lower: int, column: nat, row: nat)
    ensures Disjoint(Place(Task, upper, column, row), Place(Task, lower, column, row + 1)) <==> upper <= 6
  {
  }

  /** So the yes task of a two-way branch overlaps the no task below it
      exactly when the yes label wraps to more than six lines. */
  lemma YesOverNo(b: Branch, split: nat, preface: string -> string)
    ensures var arms := YesNoArms(b, split, preface);
            && Lines(arms[0].head) == LineCount(FormatLabel(b.yesAction, preface))
            && (Disjoint(NodeShape(arms[0].head).bounds, NodeShape(arms[1].head).bounds)
                <==> Lines(arms[0].head) <= 6)
  {
    var arms := YesNoArms(b, split, preface);
    StackedTasks(Lines(arms[0].head), Lines(arms[1].head), split + 1, 0);
  }

  /** On one node, the fallback's prefix test picks the node's own kind and
      its position is the node's column. */
  lemma LinearShapeAgrees(n: Node, index: nat)
    requires n.column == index && n.row == 0
    requires || (n.id == StartEvent && n.kind == Start)
             || (n.id == EndEvent && n.kind == End)
             || (n.id.Activity? && n.kind == Task)
    ensures LinearShape(n, index) == NodeShape(n)
  {
    var text := IdText(n.id);
    if n.id == StartEvent {
      assert text[..10] == "StartEvent";
    } else if n.id == EndEvent {
      assert text[..8] == "EndEvent";
    } else {
      assert text[0] == 'A';
    }
  }

  /** The fallback's placement agrees with the grid's on every node of a
      start-tasks-end row. */
  lemma RowShapesAgree(ns: seq<Node>)
    requires |ns| >= 2
    requires forall i :: 0 <= i < |ns| ==> ns[i].column == i && ns[i].row == 0
    requires ns[0].id == StartEvent && ns[0].kind == Start
    requires ns[|ns| - 1].id == EndEvent && ns[|ns| - 1].kind == End
    requires forall i :: 1 <= i < |ns| - 1 ==> ns[i].id.Activity? && ns[i].kind == Task
    ensures forall i :: 0 <= i < |ns| ==> LinearShape(ns[i], i) == NodeShape(ns[i])
  {
    forall i | 0 <= i < |ns|
      ensures LinearShape(ns[i], i) == NodeShape(ns[i])
    {
      LinearShapeAgrees(ns[i], i);
    }
  }

  /** With unique ids, looking up the two ends of a chain flow finds the
      nodes at positions `k` and `k + 1`. */
  lemma ChainEnds(ns: seq<Node>, fs: seq<Flow>)
    requires DistinctIds(ns) && |fs| < |ns|
    requires forall k :: 0 <= k < |fs| ==> fs[k] == Flow(k + 1, ns[k].id, ns[k + 1].id)
    ensures forall k :: 0 <= k < |fs| ==>
              Lookup(ns, fs[k].source) == Some(ns[k]) && Lookup(ns, fs[k].target) == Some(ns[k + 1])
  {
    forall k | 0 <= k < |fs|
      ensures Lookup(ns, fs[k].source) == Some(ns[k]) && Lookup(ns, fs[k].target) == Some(ns[k + 1])
    {
      LookupDistinct(ns, ns[k]);
      LookupDistinct(ns, ns[k + 1]);
    }
  }

  /** So the grid's flow lines for a chain are the fallback's. */
  lemma ChainEdgesAgree(ns: seq<Node>, fs: seq<Flow>)
    requires DistinctIds(ns) && |fs| < |ns|
    requires forall k :: 0 <= k < |fs| ==> fs[k] == Flow(k + 1, ns[k].id, ns[k + 1].id)
    requires forall i :: 0 <= i < |ns| ==> LinearShape(ns[i], i) == NodeShape(ns[i])
    ensures FlowEdges(ns, fs) == Some(LinearLayout(ns, |fs|).1)
  {
    ChainEnds(ns, fs);
    var shapes := LinearLayout(ns, |fs|).0;
    var edges := LinearLayout(ns, |fs|).1;
    var r := FlowEdges(ns, fs);
    assert r.Some?;
    forall k | 0 <= k < |fs|
      ensures r.value[k] == edges[k]
    {
      assert shapes[k] == NodeShape(ns[k]) && shapes[k + 1] == NodeShape(ns[k + 1]);
    }
    assert r.value == edges;
  }

  /** A diagram laid out as one row of nodes joined in sequence is drawn
      the same way by both layouts. */
  lemma RowMatchesGrid(p: Process)
    requires DistinctIds(p.nodes) && |p.flows| < |p.nodes|
    requires forall k :: 0 <= k < |p.flows| ==> p.flows[k] == Flow(k + 1, p.nodes[k].id, p.nodes[k + 1].id)
    requires forall i :: 0 <= i < |p.nodes| ==> LinearShape(p.nodes[i], i) == NodeShape(p.nodes[i])
    ensures GridLayout(p) == Some(LinearLayout(p.nodes, |p.flows|))
  {
    ChainEdgesAgree(p.nodes, p.flows);
    assert LinearLayout(p.nodes, |p.flows|).0 == Shapes(p.nodes);
  }

  /** Start, `Activity_1 .. Activity_n`, end on row 0, joined in order, is
      drawn the same way by both layouts. */
  lemma RowLayoutAgrees(ns: seq<Node>)
    requires |ns| >= 2
    requires forall i :: 0 <= i < |ns| ==> ns[i].column == i && ns[i].row == 0
    requires ns[0].id == StartEvent && ns[0].kind == Start
    requires ns[|ns| - 1].id == EndEvent && ns[|ns| - 1].kind == End
    requires forall i :: 1 <= i < |ns| - 1 ==> ns[i].id == Activity(i) && ns[i].kind == Task
    ensures var p := Process(ns, Number(Chain(ns)));
            GridLayout(p) == Some(LinearLayout(ns, |p.flows|))
  {
    LinearIdsAscend(ns);
    assert Ascending(ns, Cell);
    AscendingDistinct(ns);
    RowShapesAgree(ns);
    RowMatchesGrid(Process(ns, Number(Chain(ns))));
  }

  /** The linear fallback draws exactly what the grid layout draws for the
      same diagram: its index-based placement and prefix-based typing agree
      with the nodes' cells and kinds, and its position-based flow ends agree
      with the id lookups. */
  lemma LinearMatchesGrid(steps: seq<string>, preface: string -> string)
    ensures var p := LinearProcess(steps, preface);
            GridLayout(p) == Some(LinearLayout(p.nodes, |p.flows|))
  {
    RowLayoutAgrees(LinearNodes(steps, preface));
  }
}

=== FILE: structure.dfy ===
/** Structural facts about the diagrams `convert_text_to_bpmn` builds: node
    ids are unique, no two nodes share a grid cell, every flow joins two nodes
    of the diagram and runs to a later column, the flows are numbered
    `Flow_1 .. Flow_k`, and the gateways fan out to and in from exactly the
    branch arms. */
module Structure {
  import opened Wrappers
  import opened Branches
  import opened Ids
  import opened Labels
  import opened Graph

  // ---------------------------------------------------------------------------
  // ascending sequences of nodes

  /** Lexicographic order on pairs. */
  predicate Less(a: (int, int), b: (int, int)) {
    a.0 < b.0 || (a.0 == b.0 && a.1 < b.1)
  }

  /** Consecutive nodes strictly ascend by `key`. */
  predicate Ascending(ns: seq<Node>, key: Node -> (int, int)) {
    forall i :: 0 < i < |ns| ==> Less(key(ns[i - 1]), key(ns[i]))
  }

  lemma {:induction false} AscendingFrom(ns: seq<Node>, key: Node -> (int, int), i: nat, j: nat)
    requires Ascending(ns, key) && i < j < |ns|
    ensures Less(key(ns[i]), key(ns[j]))
    decreases j - i
  {
    if j > i + 1 {
      AscendingFrom(ns, key, i, j - 1);
    }
  }

  lemma AscendingAppend(a: seq<Node>, b: seq<Node>, key: Node -> (int, int))
    requires Ascending(a, key) && Ascending(b, key)
    requires a != [] && b != [] ==> Less(key(a[|a| - 1]), key(b[0]))
    ensures Ascending(a + b, key)
  {
    var c := a + b;
    forall i | 0 < i < |c|
      ensures Less(key(c[i - 1]), key(c[i]))
    {
      if i < |a| {
        assert c[i - 1] == a[i - 1] && c[i] == a[i];
      } else if i == |a| {
        assert c[i - 1] == a[|a| - 1] && c[i] == b[0];
      } else {
        assert c[i - 1] == b[i - 1 - |a|] && c[i] == b[i - |a|];
      }
    }
  }

  /** A node's grid cell. */
  function Cell(n: Node): (int, int) {
    (n.column, n.row)
  }

  /** A rank of the node ids in the order the converter emits them. */
  function IdKey(n: Node): (int, int) {
    match n.id
    case StartEvent => (0, 0)
    case Activity(k) => (1, k)
    case GatewaySplit => (2, 0)
    case ActivityYes => (3, 0)
    case ActivityNo => (4, 0)
    case ActivityNoFollow => (5, 0)
    case ActivityB(k) => (6, k)
    case GatewayJoin => (7, 0)
    case EndEvent => (8, 0)
  }

  predicate DistinctIds(ns: seq<Node>) {
    forall i, j :: 0 <= i < j < |ns| ==> ns[i].id != ns[j].id
  }

  /** No two nodes are placed on the same grid cell. */
  predicate DistinctCells(ns: seq<Node>) {
    forall i, j :: 0 <= i < j < |ns| ==> ns[i].column != ns[j].column || ns[i].row != ns[j].row
  }

  /** Nodes ascending both by cell and by id rank have distinct ids and cells. */
  lemma AscendingDistinct(ns: seq<Node>)
    requires Ascending(ns, Cell) && Ascending(ns, IdKey)
    ensures DistinctIds(ns) && DistinctCells(ns)
  {
    forall i, j | 0 <= i < j < |ns|
      ensures ns[i].id != ns[j].id && (ns[i].column != ns[j].column || ns[i].row != ns[j].row)
    {
      AscendingFrom(ns, Cell, i, j);
      AscendingFrom(ns, IdKey, i, j);
    }
  }

  /** With unique ids, the lookup of a node's id finds that node. */
  lemma LookupDistinct(ns: seq<Node>, n: Node)
    requires DistinctIds(ns) && n in ns
    ensures Lookup(ns, n.id) == Some(n)
    decreases |ns|
  {
    if ns[0] != n {
      assert DistinctIds(ns[1..]);
      assert n in ns[1..];
      LookupDistinct(ns[1..], n);
    }
  }

  // ---------------------------------------------------------------------------
  // the arms

  /** Arms without follow-ups contribute just their heads. */
  lemma {:induction false} HeadsOnly(arms: seq<Arm>)
    requires forall i :: 0 <= i < |arms| ==> arms[i].follow == None
    ensures |AllArmNodes(arms)| == |arms|
    ensures forall i :: 0 <= i < |arms| ==> AllArmNodes(arms)[i] == arms[i].head
    ensures Inner(arms) == []
    decreases |arms|
  {
    if arms != [] {
      HeadsOnly(arms[1..]);
      assert ArmNodes(arms[0]) == [arms[0].head];
    }
  }

  /** Every node of an arm is among the arm nodes. */
  lemma {:induction false} ArmNodesIn(arms: seq<Arm>, i: nat)
    requires i < |arms|
    ensures arms[i].head in AllArmNodes(arms)
    ensures arms[i].follow.Some? ==> arms[i].follow.value in AllArmNodes(arms)
    ensures ArmEnd(arms[i]) in AllArmNodes(arms)
    decreases i
  {
    if i > 0 {
      ArmNodesIn(arms[1..], i - 1);
      assert arms[1..][i - 1] == arms[i];
    }
  }

  /** The arms of either branch kind, with the facts the proofs below use:
      the arm nodes ascend, start one column past the split with a head, are
      all tasks of the arms, and the links inside the arms run forward. */
  predicate ArmsShape(arms: seq<Arm>, split: nat) {
    var an := AllArmNodes(arms);
    && Ascending(an, Cell) && Ascending(an, IdKey)
    && (an != [] ==> an[0].column == split + 1 && (an[0].id.ActivityYes? || an[0].id.ActivityB?))
    && (forall i :: 0 <= i < |an| ==> ArmId(an[i].id) && an[i].column > split)
    && (forall k :: 0 <= k < |Inner(arms)| ==>
          Inner(arms)[k].from in an && Inner(arms)[k].to in an
          && Inner(arms)[k].from.column < Inner(arms)[k].to.column)
  }

  /** The ids only branch-arm tasks carry. */
  predicate ArmId(id: NodeId) {
    id.ActivityYes? || id.ActivityNo? || id.ActivityNoFollow? || id.ActivityB?
  }

  /** The two-way branch: yes over no, and the follow-up right of no. */
  lemma TwoArmsShape(arms: seq<Arm>, split: nat)
    requires |arms| == 2 && arms[0].follow == None
    requires arms[0].head.id == ActivityYes && arms[1].head.id == ActivityNo
    requires arms[0].head.column == split + 1 && arms[1].head.column == split + 1
    requires arms[0].head.row == 0 && arms[1].head.row == 1
    requires arms[1].follow.Some? ==>
               arms[1].follow.value.id == ActivityNoFollow && arms[1].follow.value.column == split + 2
    ensures ArmsShape(arms, split)
  {
    if arms[1].follow.Some? {
      FollowedArmsShape(arms[0].head, arms[1].head, arms[1].follow.value, split);
      assert arms == [Arm(arms[0].head, None), Arm(arms[1].head, arms[1].follow)];
    } else {
      PlainArmsShape(arms[0].head, arms[1].head, split);
      assert arms == [Arm(arms[0].head, None), Arm(arms[1].head, None)];
    }
  }

  lemma {:induction false} PlainArmsShape(yes: Node, no: Node, split: nat)
    requires yes.id == ActivityYes && no.id == ActivityNo
    requires yes.column == split + 1 && no.column == split + 1 && yes.row == 0 && no.row == 1
    ensures ArmsShape([Arm(yes, None), Arm(no, None)], split)
  {
    var arms := [Arm(yes, None), Arm(no, None)];
    assert arms[1..][1..] == [];
    assert AllArmNodes(arms[1..]) == [no];
    assert AllArmNodes(arms) == [yes, no];
    assert Inner(arms[1..]) == [];
    assert Inner(arms) == [];
  }

  lemma {:induction false} FollowedArmsShape(yes: Node, no: Node, follow: Node, split: nat)
    requires yes.id == ActivityYes && no.id == ActivityNo && follow.id == ActivityNoFollow
    requires yes.column == split + 1 && no.column == split + 1 && yes.row == 0 && no.row == 1
    requires follow.column == split + 2
    ensures ArmsShape([Arm(yes, None), Arm(no, Some(follow))], split)
  {
    var arms := [Arm(yes, None), Arm(no, Some(follow))];
    assert arms[1..][1..] == [];
    assert AllArmNodes(arms[1..]) == [no, follow];
    var an := AllArmNodes(arms);
    assert an == [yes, no, follow];
    assert Inner(arms[1..]) == [Link(no, follow)];
    assert Inner(arms) == [Link(no, follow)];
  }

  /** The multi-way branch: one head per arm, stacked in rows. */
  lemma StackedArmsShape(arms: seq<Arm>, split: nat)
    requires forall i :: 0 <= i < |arms| ==>
               arms[i].follow == None && arms[i].head.id == ActivityB(i + 1)
               && arms[i].head.column == split + 1 && arms[i].head.row == i
    ensures ArmsShape(arms, split)
  {
    HeadsOnly(arms);
    var an := AllArmNodes(arms);
    assert forall i :: 0 <= i < |an| ==> an[i] == arms[i].head;
  }

  lemma YesNoArmsShape(b: Branch, split: nat, preface: string -> string)
    ensures ArmsShape(YesNoArms(b, split, preface), split)
  {
    TwoArmsShape(YesNoArms(b, split, preface), split);
  }

  lemma MultiArmsShape(m: MultiBranch, split: nat, preface: string -> string)
    ensures ArmsShape(MultiArms(m, split, preface), split)
  {
    StackedArmsShape(MultiArms(m, split, preface), split);
  }

  // ---------------------------------------------------------------------------
  // flows

  /** A link joins two nodes of `ns` and runs to a later column. */
  predicate Forward(l: Link, ns: seq<Node>) {
    l.from in ns && l.to in ns && l.from.column < l.to.column
  }

  predicate AllForward(ls: seq<Link>, ns: seq<Node>) {
    forall k :: 0 <= k < |ls| ==> Forward(ls[k], ns)
  }

  lemma AllForwardAppend(a: seq<Link>, b: seq<Link>, ns: seq<Node>)
    requires AllForward(a, ns) && AllForward(b, ns)
    ensures AllForward(a + b, ns)
  {
    forall k | 0 <= k < |a + b|
      ensures Forward((a + b)[k], ns)
    {
      if k < |a| {
        assert (a + b)[k] == a[k];
      } else {
        assert (a + b)[k] == b[k - |a|];
      }
    }
  }

  /** The node ids at one end of a link. */
  function EndOf(l: Link, outgoing: bool): NodeId {
    if outgoing then l.from.id else l.to.id
  }

  /** How many of `xs` satisfy `p`. */
  function Count<T>(xs: seq<T>, p: T -> bool): nat {
    if xs == [] then 0 else (if p(xs[0]) then 1 else 0) + Count(xs[1..], p)
  }

  lemma {:induction false} CountAppend<T>(a: seq<T>, b: seq<T>, p: T -> bool)
    ensures Count(a + b, p) == Count(a, p) + Count(b, p)
    decreases |a|
  {
    if a != [] {
      assert (a + b)[1..] == a[1..] + b;
      CountAppend(a[1..], b, p);
    } else {
      assert a + b == b;
    }
  }

  lemma {:induction false} CountAll<T>(xs: seq<T>, p: T -> bool)
    requires forall k :: 0 <= k < |xs| ==> p(xs[k])
    ensures Count(xs, p) == |xs|
    decreases |xs|
  {
    if xs != [] {
      CountAll(xs[1..], p);
    }
  }

  lemma {:induction false} CountNone<T>(xs: seq<T>, p: T -> bool)
    requires forall k :: 0 <= k < |xs| ==> !p(xs[k])
    ensures Count(xs, p) == 0
    decreases |xs|
  {
    if xs != [] {
      CountNone(xs[1..], p);
    }
  }

  lemma {:induction false} CountPointwise<T, U>(xs: seq<T>, p: T -> bool, ys: seq<U>, q: U -> bool)
    requires |xs| == |ys| && forall k :: 0 <= k < |xs| ==> p(xs[k]) == q(ys[k])
    ensures Count(xs, p) == Count(ys, q)
    decreases |xs|
  {
    if xs != [] {
      CountPointwise(xs[1..], p, ys[1..], q);
    }
  }

  function SourceIs(id: NodeId): Flow -> bool {
    (f: Flow) => f.source == id
  }

  function TargetIs(id: NodeId): Flow -> bool {
    (f: Flow) => f.target == id
  }

  function FromIs(id: NodeId): Link -> bool {
    (l: Link) => l.from.id == id
  }

  function ToIs(id: NodeId): Link -> bool {
    (l: Link) => l.to.id == id
  }

  /** The number of flows leaving the node `id`. */
  function OutDegree(fs: seq<Flow>, id: NodeId): nat {
    Count(fs, SourceIs(id))
  }

  /** The number of flows entering the node `id`. */
  function InDegree(fs: seq<Flow>, id: NodeId): nat {
    Count(fs, TargetIs(id))
  }

  /** Numbering keeps the ends of every flow, so it keeps the degrees. */
  lemma NumberDegrees(ls: seq<Link>, id: NodeId)
    ensures OutDegree(Number(ls), id) == Count(ls, FromIs(id))
    ensures InDegree(Number(ls), id) == Count(ls, ToIs(id))
  {
    CountPointwise(Number(ls), SourceIs(id), ls, FromIs(id));
    CountPointwise(Number(ls), TargetIs(id), ls, ToIs(id));
  }

  // ---------------------------------------------------------------------------
  // the gateway diagram

  /** The shape `GatewayParts` gives its parts: steps in columns 1..n, the
      split after them, the arms past the split, the join past the deepest
      arm task and the end after the join, all but the arms on row 0. */
  predicate PartsShape(g: Parts) {
    var s := |g.pre| + 1;
    && g.start == StartNode()
    && (forall i :: 0 <= i < |g.pre| ==>
          g.pre[i].id == Activity(i + 1) && g.pre[i].column == i + 1 && g.pre[i].row == 0)
    && g.split.id == GatewaySplit && g.split.column == s && g.split.row == 0
    && ArmsShape(g.arms, s)
    && g.join.id == GatewayJoin && g.join.row == 0 && g.join.column == JoinColumn(g.arms, s)
    && g.end.id == EndEvent && g.end.row == 0 && g.end.column == g.join.column + 1
  }

  lemma GatewayPartsShape(preSteps: seq<string>, det: Detection, preface: string -> string)
    requires !det.NoBranch? && Detected(det)
    ensures PartsShape(GatewayParts(preSteps, det, preface))
  {
    var s := |preSteps| + 1;
    if det.Single? {
      YesNoArmsShape(det.branch, s, preface);
    } else {
      MultiArmsShape(det.multi, s, preface);
    }
  }

  /** Every arm node lies left of the join. */
  lemma BeforeJoin(g: Parts, n: Node)
    requires PartsShape(g) && n in AllArmNodes(g.arms)
    ensures n.column < g.join.column
  {
    assert g.arms != [];
  }

  /** The steps, then the split: the nodes before the arms. */
  lemma {:induction false} HeadAscending(g: Parts, key: Node -> (int, int))
    requires PartsShape(g)
    requires Ascending(g.pre, key)
    requires g.pre != [] ==> Less(key(g.start), key(g.pre[0])) && Less(key(g.pre[|g.pre| - 1]), key(g.split))
    requires g.pre == [] ==> Less(key(g.start), key(g.split))
    ensures Ascending([g.start] + g.pre + [g.split], key)
  {
    var n1 := [g.start] + g.pre;
    AscendingAppend([g.start], g.pre, key);
    assert n1[|n1| - 1] == if g.pre != [] then g.pre[|g.pre| - 1] else g.start;
    AscendingAppend(n1, [g.split], key);
  }

  /** The nodes before the arms, the arms, then join and end. */
  lemma {:induction false} TailAscending(g: Parts, key: Node -> (int, int))
    requires PartsShape(g)
    requires Ascending([g.start] + g.pre + [g.split], key)
    requires Ascending(AllArmNodes(g.arms), key)
    requires AllArmNodes(g.arms) != [] ==> Less(key(g.split), key(AllArmNodes(g.arms)[0]))
    requires AllArmNodes(g.arms) != [] ==> Less(key(AllArmNodes(g.arms)[|AllArmNodes(g.arms)| - 1]), key(g.join))
    requires AllArmNodes(g.arms) == [] ==> Less(key(g.split), key(g.join))
    requires Less(key(g.join), key(g.end))
    ensures Ascending(PartsNodes(g), key)
  {
    var an := AllArmNodes(g.arms);
    var n2 := [g.start] + g.pre + [g.split];
    AscendingAppend(n2, an, key);
    var n3 := n2 + an;
    assert n3[|n3| - 1] == if an != [] then an[|an| - 1] else g.split;
    AscendingAppend(n3, [g.join, g.end], key);
  }

  lemma PartsAscendingCells(g: Parts)
    requires PartsShape(g)
    ensures Ascending(PartsNodes(g), Cell)
  {
    HeadAscending(g, Cell);
    var an := AllArmNodes(g.arms);
    if an != [] {
      BeforeJoin(g, an[|an| - 1]);
    }
    TailAscending(g, Cell);
  }

  /** The steps ascend in id rank, after the start and before the split. */
  lemma PreIdsAscend(g: Parts)
    requires PartsShape(g)
    ensures Ascending(g.pre, IdKey)
    ensures g.pre != [] ==> Less(IdKey(g.start), IdKey(g.pre[0])) && Less(IdKey(g.pre[|g.pre| - 1]), IdKey(g.split))
    ensures g.pre == [] ==> Less(IdKey(g.start), IdKey(g.split))
  {
    forall i | 0 < i < |g.pre|
      ensures Less(IdKey(g.pre[i - 1]), IdKey(g.pre[i]))
    {
      assert IdKey(g.pre[i - 1]) == (1, i) && IdKey(g.pre[i]) == (1, i + 1);
    }
  }

  /** The arms ascend in id rank, after the split and before the join. */
  lemma ArmIdsAscend(an: seq<Node>, split: Node, join: Node)
    requires split.id == GatewaySplit && join.id == GatewayJoin
    requires an != [] ==> an[0].id.ActivityYes? || an[0].id.ActivityB?
    requires forall i :: 0 <= i < |an| ==> ArmId(an[i].id)
    ensures an != [] ==> Less(IdKey(split), IdKey(an[0]))
    ensures an != [] ==> Less(IdKey(an[|an| - 1]), IdKey(join))
  {
    if an != [] {
      ArmIdKey(an[|an| - 1]);
    }
  }

  lemma ArmIdKey(n: Node)
    requires ArmId(n.id)
    ensures 3 <= IdKey(n).0 <= 6
  {
  }

  lemma PartsAscendingIds(g: Parts)
    requires PartsShape(g)
    ensures Ascending(PartsNodes(g), IdKey)
  {
    PreIdsAscend(g);
    HeadAscending(g, IdKey);
    ArmIdsAscend(AllArmNodes(g.arms), g.split, g.join);
    TailAscending(g, IdKey);
  }

  /** The flows from the split to the arm heads run forward. */
  lemma FanOutForward(g: Parts)
    requires PartsShape(g)
    ensures AllForward(FanOut(g.split, g.arms), PartsNodes(g))
  {
    var l4 := FanOut(g.split, g.arms);
    forall k | 0 <= k < |l4|
      ensures Forward(l4[k], PartsNodes(g))
    {
      ArmNodesIn(g.arms, k);
    }
  }

  /** The flows from the arm ends to the join run forward. */
  lemma FanInForward(g: Parts)
    requires PartsShape(g)
    ensures AllForward(FanIn(g.arms, g.join), PartsNodes(g))
  {
    var l6 := FanIn(g.arms, g.join);
    forall k | 0 <= k < |l6|
      ensures Forward(l6[k], PartsNodes(g))
    {
      ArmNodesIn(g.arms, k);
      BeforeJoin(g, ArmEnd(g.arms[k]));
    }
  }

  /** The flows from the start, along the steps, to the split run forward. */
  lemma LeadForward(g: Parts)
    requires PartsShape(g)
    ensures AllForward([Link(g.start, if g.pre != [] then g.pre[0] else g.split)]
                       + Chain(g.pre)
                       + (if g.pre != [] then [Link(g.pre[|g.pre| - 1], g.split)] else []), PartsNodes(g))
  {
    var ns := PartsNodes(g);
    var l1 := [Link(g.start, if g.pre != [] then g.pre[0] else g.split)];
    var l2 := Chain(g.pre);
    var l3 := if g.pre != [] then [Link(g.pre[|g.pre| - 1], g.split)] else [];
    EntryForward(g);
    ChainForward(g);
    AllForwardAppend(l1, l2, ns);
    AllForwardAppend(l1 + l2, l3, ns);
  }

  /** The first flow leaves the start, and the last step flows into the split. */
  lemma EntryForward(g: Parts)
    requires PartsShape(g)
    ensures AllForward([Link(g.start, if g.pre != [] then g.pre[0] else g.split)], PartsNodes(g))
    ensures AllForward(if g.pre != [] then [Link(g.pre[|g.pre| - 1], g.split)] else [], PartsNodes(g))
  {
    var ns := PartsNodes(g);
    assert ns[0] == g.start && ns[|g.pre| + 1] == g.split;
    if g.pre != [] {
      assert ns[1] == g.pre[0] && ns[|g.pre|] == g.pre[|g.pre| - 1];
    }
  }

  lemma ChainForward(g: Parts)
    requires PartsShape(g)
    ensures AllForward(Chain(g.pre), PartsNodes(g))
  {
    var ns := PartsNodes(g);
    var l2 := Chain(g.pre);
    forall k | 0 <= k < |l2|
      ensures Forward(l2[k], ns)
    {
      assert ns[k + 1] == g.pre[k] && ns[k + 2] == g.pre[k + 1];
    }
  }

  /** The links inside the arms and the link from the join to the end run
      forward. */
  lemma InnerTailForward(g: Parts)
    requires PartsShape(g)
    ensures AllForward(Inner(g.arms), PartsNodes(g)) && AllForward([Link(g.join, g.end)], PartsNodes(g))
  {
  }

  lemma AllForwardAppend5(a: seq<Link>, b: seq<Link>, c: seq<Link>, d: seq<Link>, e: seq<Link>, ns: seq<Node>)
    requires AllForward(a, ns) && AllForward(b, ns) && AllForward(c, ns) && AllForward(d, ns) && AllForward(e, ns)
    ensures AllForward(a + b + c + d + e, ns)
  {
    AllForwardAppend(a, b, ns);
    AllForwardAppend(a + b, c, ns);
    AllForwardAppend(a + b + c, d, ns);
    AllForwardAppend(a + b + c + d, e, ns);
  }

  lemma PartsForward(g: Parts)
    requires PartsShape(g)
    ensures AllForward(PartsLinks(g), PartsNodes(g))
  {
    var lead := [Link(g.start, if g.pre != [] then g.pre[0] else g.split)]
                + Chain(g.pre)
                + (if g.pre != [] then [Link(g.pre[|g.pre| - 1], g.split)] else []);
    LeadForward(g);
    FanOutForward(g);
    InnerTailForward(g);
    FanInForward(g);
    AllForwardAppend5(lead, FanOut(g.split, g.arms), Inner(g.arms), FanIn(g.arms, g.join),
                      [Link(g.join, g.end)], PartsNodes(g));
  }

  /** The number of link ends at `id` over the seven groups of gateway links. */
  lemma {:induction false} PartsLinksCount(g: Parts, p: Link -> bool)
    ensures Count(PartsLinks(g), p) ==
              Count([Link(g.start, if g.pre != [] then g.pre[0] else g.split)], p)
              + Count(Chain(g.pre), p)
              + Count(if g.pre != [] then [Link(g.pre[|g.pre| - 1], g.split)] else [], p)
              + Count(FanOut(g.split, g.arms), p) + Count(Inner(g.arms), p) + Count(FanIn(g.arms, g.join), p)
              + Count([Link(g.join, g.end)], p)
  {
    var l1 := [Link(g.start, if g.pre != [] then g.pre[0] else g.split)];
    var l2 := Chain(g.pre);
    var l3 := if g.pre != [] then [Link(g.pre[|g.pre| - 1], g.split)] else [];
    var l4 := FanOut(g.split, g.arms);
    var l5 := Inner(g.arms);
    var l6 := FanIn(g.arms, g.join);
    var l7 := [Link(g.join, g.end)];
    CountAppend(l1, l2, p);
    CountAppend(l1 + l2, l3, p);
    CountAppend(l1 + l2 + l3, l4, p);
    CountAppend(l1 + l2 + l3 + l4, l5, p);
    CountAppend(l1 + l2 + l3 + l4 + l5, l6, p);
    CountAppend(l1 + l2 + l3 + l4 + l5 + l6, l7, p);
  }

  /** The ids of the parts: all that the degree counts depend on. */
  predicate PartsIds(g: Parts) {
    var an := AllArmNodes(g.arms);
    && g.start.id == StartEvent && g.split.id == GatewaySplit
    && g.join.id == GatewayJoin && g.end.id == EndEvent
    && (forall i :: 0 <= i < |g.pre| ==> g.pre[i].id.Activity?)
    && (forall i :: 0 <= i < |an| ==> ArmId(an[i].id))
    && (forall k :: 0 <= k < |Inner(g.arms)| ==> Inner(g.arms)[k].from in an && Inner(g.arms)[k].to in an)
  }

  lemma PartsShapeIds(g: Parts)
    requires PartsShape(g)
    ensures PartsIds(g)
  {
  }

  /** The links from the start along the steps neither leave the split nor
      enter the join. */
  lemma LeadCounts(g: Parts)
    requires PartsIds(g)
    ensures var l1 := [Link(g.start, if g.pre != [] then g.pre[0] else g.split)];
            var l2 := Chain(g.pre);
            var l3 := if g.pre != [] then [Link(g.pre[|g.pre| - 1], g.split)] else [];
            && Count(l1, FromIs(GatewaySplit)) == 0 && Count(l2, FromIs(GatewaySplit)) == 0
            && Count(l3, FromIs(GatewaySplit)) == 0
            && Count(l1, ToIs(GatewayJoin)) == 0 && Count(l2, ToIs(GatewayJoin)) == 0
            && Count(l3, ToIs(GatewayJoin)) == 0
  {
    var l1 := [Link(g.start, if g.pre != [] then g.pre[0] else g.split)];
    var l2 := Chain(g.pre);
    var l3 := if g.pre != [] then [Link(g.pre[|g.pre| - 1], g.split)] else [];
    CountNone(l1, FromIs(GatewaySplit));
    CountNone(l2, FromIs(GatewaySplit));
    CountNone(l3, FromIs(GatewaySplit));
    CountNone(l1, ToIs(GatewayJoin));
    CountNone(l2, ToIs(GatewayJoin));
    CountNone(l3, ToIs(GatewayJoin));
  }

  /** Links between arm tasks touch neither gateway; the join's links leave
      arm tasks and the split's links enter them. */
  lemma ArmLinkCounts(g: Parts)
    requires PartsIds(g)
    ensures Count(Inner(g.arms), FromIs(GatewaySplit)) == 0 && Count(Inner(g.arms), ToIs(GatewayJoin)) == 0
    ensures Count(FanIn(g.arms, g.join), FromIs(GatewaySplit)) == 0
    ensures Count(FanOut(g.split, g.arms), ToIs(GatewayJoin)) == 0
  {
    var an := AllArmNodes(g.arms);
    assert forall k :: 0 <= k < |Inner(g.arms)| ==> Inner(g.arms)[k].from in an && Inner(g.arms)[k].to in an;
    CountNone(Inner(g.arms), FromIs(GatewaySplit));
    CountNone(Inner(g.arms), ToIs(GatewayJoin));
    forall k | 0 <= k < |g.arms|
      ensures ArmEnd(g.arms[k]) in an && g.arms[k].head in an
    {
      ArmNodesIn(g.arms, k);
    }
    CountNone(FanIn(g.arms, g.join), FromIs(GatewaySplit));
    CountNone(FanOut(g.split, g.arms), ToIs(GatewayJoin));
  }

  /** Only the flows to the arm heads leave the split. */
  lemma SplitFanOut(g: Parts)
    requires PartsIds(g)
    ensures Count(PartsLinks(g), FromIs(GatewaySplit)) == |g.arms|
  {
    var p := FromIs(GatewaySplit);
    PartsLinksCount(g, p);
    LeadCounts(g);
    CountAll(FanOut(g.split, g.arms), p);
    ArmLinkCounts(g);
    CountNone([Link(g.join, g.end)], p);
  }

  /** Only the flows from the arm ends enter the join. */
  lemma JoinFanIn(g: Parts)
    requires PartsIds(g)
    ensures Count(PartsLinks(g), ToIs(GatewayJoin)) == |g.arms|
  {
    var p := ToIs(GatewayJoin);
    PartsLinksCount(g, p);
    LeadCounts(g);
    ArmLinkCounts(g);
    CountAll(FanIn(g.arms, g.join), p);
    CountNone([Link(g.join, g.end)], p);
  }

  /** Each arm adds its head and, with it, a follow-up and the link to it. */
  lemma {:induction false} ArmNodesCount(arms: seq<Arm>)
    ensures |AllArmNodes(arms)| == |arms| + |Inner(arms)|
    decreases |arms|
  {
    if arms != [] {
      ArmNodesCount(arms[1..]);
    }
  }

  /** The gateway diagram has as many flows as nodes, plus one per arm, less
      two: every node but the start has one incoming flow, except the join,
      which has one per arm. */
  lemma PartsSize(g: Parts)
    ensures |PartsLinks(g)| + 2 == |PartsNodes(g)| + |g.arms|
  {
    ArmNodesCount(g.arms);
  }

  // ---------------------------------------------------------------------------
  // the converted diagram

  /** A flow whose two ends are nodes of `ns`, the target in a later column. */
  predicate Runs(ns: seq<Node>, f: Flow) {
    && Lookup(ns, f.source).Some? && Lookup(ns, f.target).Some?
    && Lookup(ns, f.source).value.column < Lookup(ns, f.target).value.column
  }

  /** The diagram invariants: unique ids, one node per grid cell, flows
      numbered `Flow_1 .. Flow_k` in order, and every flow joining two nodes
      of the diagram from left to right (so the diagram has no cycle). */
  predicate WellFormed(p: Process) {
    && DistinctIds(p.nodes) && DistinctCells(p.nodes)
    && (forall k :: 0 <= k < |p.flows| ==> p.flows[k].index == k + 1)
    && (forall k :: 0 <= k < |p.flows| ==> Runs(p.nodes, p.flows[k]))
  }

  /** Numbered forward links over nodes with unique ids make a well-formed
      process. */
  lemma NumberedWellFormed(ns: seq<Node>, ls: seq<Link>)
    requires Ascending(ns, Cell) && Ascending(ns, IdKey) && AllForward(ls, ns)
    ensures WellFormed(Process(ns, Number(ls)))
  {
    AscendingDistinct(ns);
    var fs := Number(ls);
    forall k | 0 <= k < |fs|
      ensures Runs(ns, fs[k])
    {
      LookupDistinct(ns, ls[k].from);
      LookupDistinct(ns, ls[k].to);
    }
  }

  lemma GatewayWellFormed(preSteps: seq<string>, det: Detection, preface: string -> string)
    requires !det.NoBranch? && Detected(det)
    ensures WellFormed(GatewayProcess(preSteps, det, preface))
  {
    var g := GatewayParts(preSteps, det, preface);
    GatewayPartsShape(preSteps, det, preface);
    PartsAscendingCells(g);
    PartsAscendingIds(g);
    PartsForward(g);
    NumberedWellFormed(PartsNodes(g), PartsLinks(g));
  }

  /** Start, `Activity_1 .. Activity_n`, end: ascending in id rank. */
  lemma LinearIdsAscend(ns: seq<Node>)
    requires |ns| >= 2 && ns[0].id == StartEvent && ns[|ns| - 1].id == EndEvent
    requires forall i :: 1 <= i < |ns| - 1 ==> ns[i].id == Activity(i)
    ensures Ascending(ns, IdKey)
  {
    forall i | 0 < i < |ns|
      ensures Less(IdKey(ns[i - 1]), IdKey(ns[i]))
    {
      if i == |ns| - 1 {
        assert IdKey(ns[i]) == (8, 0);
        assert IdKey(ns[i - 1]).0 <= 1;
      } else if i == 1 {
        assert IdKey(ns[0]) == (0, 0) && IdKey(ns[1]) == (1, 1);
      } else {
        assert IdKey(ns[i - 1]) == (1, i - 1) && IdKey(ns[i]) == (1, i);
      }
    }
  }

  lemma LinearWellFormed(steps: seq<string>, preface: string -> string)
    ensures WellFormed(LinearProcess(steps, preface))
  {
    var ns := LinearNodes(steps, preface);
    LinearIdsAscend(ns);
    var ls := Chain(ns);
    assert AllForward(ls, ns);
    NumberedWellFormed(ns, ls);
  }

  /** Every diagram `convert_text_to_bpmn` produces is well-formed. */
  lemma ConvertWellFormed(steps: seq<string>, preSteps: seq<string>, det: Detection, preface: string -> string)
    requires Detected(det)
    ensures Convert(steps, preSteps, det, preface).Success? ==> WellFormed(Convert(steps, preSteps, det, preface).value)
  {
    if steps != [] {
      if det.NoBranch? {
        LinearWellFormed(steps, preface);
      } else {
        GatewayWellFormed(preSteps, det, preface);
      }
    }
  }

  /** The number of branch arms of a detection. */
  function ArmCount(det: Detection): nat {
    match det
    case NoBranch => 0
    case Single(_) => 2
    case Multi(m) => |m.branches|
  }

  /** The split gateway has one outgoing flow per arm and the join one
      incoming flow per arm; counting the flows, every node but the start has
      one incoming flow, except the join, which has one per arm. */
  lemma GatewayDegrees(preSteps: seq<string>, det: Detection, preface: string -> string)
    requires !det.NoBranch? && Detected(det)
    ensures var p := GatewayProcess(preSteps, det, preface);
            && OutDegree(p.flows, GatewaySplit) == ArmCount(det)
            && InDegree(p.flows, GatewayJoin) == ArmCount(det)
            && |p.flows| + 2 == |p.nodes| + ArmCount(det)
  {
    var g := GatewayParts(preSteps, det, preface);
    GatewayPartsShape(preSteps, det, preface);
    PartsShapeIds(g);
    SplitFanOut(g);
    JoinFanIn(g);
    NumberDegrees(PartsLinks(g), GatewaySplit);
    NumberDegrees(PartsLinks(g), GatewayJoin);
    PartsSize(g);
  }

  /** What the converter does with a detected decision: the diagram it returns
      has a split with one outgoing flow per arm and a join with one incoming
      flow per arm, at least two of each. Without a decision the diagram has
      no gateway at all. */
  lemma ConvertDegrees(steps: seq<string>, preSteps: seq<string>, det: Detection, preface: string -> string)
    requires Detected(det)
    ensures var r := Convert(steps, preSteps, det, preface);
            r.Success? && !det.NoBranch? ==>
              && ArmCount(det) >= 2
              && OutDegree(r.value.flows, GatewaySplit) == ArmCount(det)
              && InDegree(r.value.flows, GatewayJoin) == ArmCount(det)
    ensures var r := Convert(steps, preSteps, det, preface);
            r.Success? && det.NoBranch? ==> forall n :: n in r.value.nodes ==> n.kind != Gateway
  {
    if steps != [] {
      if det.NoBranch? {
        var ns := LinearNodes(steps, preface);
        forall n | n in ns
          ensures n.kind != Gateway
        {
          var i :| 0 <= i < |ns| && ns[i] == n;
          if 1 <= i <= |steps| {
            assert n.kind == Task;
          }
        }
      } else {
        GatewayDegrees(preSteps, det, preface);
      }
    }
  }
}

=== FILE: text.dfy ===
/** The parts of Python's `str` and `re` behaviour the converter relies on:
    whitespace classes, `str.split()` and `sep.join`, `in`, `str.replace`,
    `str.strip`, the `\s+` collapsing substitution and `str(n)` for counters.
    Strings are sequences of Unicode code points, as Python's are. */
module Text {

  /** Python's `str.isspace()`: the characters that `str.split()`, `str.strip()`
      and the regular-expression class `\s` treat as whitespace. */
  predicate IsSpace(c: char) {
    || c == ' '
    || ('\t' <= c <= '\r')
    || ('\U{1C}' <= c <= '\U{1F}')
    || c == '\U{85}' || c == '\U{A0}' || c == '\U{1680}'
    || ('\U{2000}' <= c <= '\U{200A}')
    || c == '\U{2028}' || c == '\U{2029}' || c == '\U{202F}' || c == '\U{205F}' || c == '\U{3000}'
  }

  /** The regular-expression class `\w` restricted to the scripts the converter
      reads: ASCII letters, digits and `_`, and the letters and digits of the
      Arabic block used by Persian. Punctuation such as `،` `؛` `؟` and the
      zero-width non-joiner are not word characters. */
  predicate IsWordChar(c: char) {
    || ('a' <= c <= 'z') || ('A' <= c <= 'Z') || ('0' <= c <= '9') || c == '_'
    || ('\U{0620}' <= c <= '\U{064A}') || ('\U{0660}' <= c <= '\U{0669}')
    || ('\U{066E}' <= c <= '\U{066F}') || ('\U{0671}' <= c <= '\U{06D3}') || c == '\U{06D5}'
    || ('\U{06E5}' <= c <= '\U{06E6}') || ('\U{06EE}' <= c <= '\U{06FC}') || c == '\U{06FF}'
  }

  /** A word as `str.split()` yields it: non-empty and free of whitespace. */
  predicate IsWord(w: string) {
    |w| > 0 && forall i :: 0 <= i < |w| ==> !IsSpace(w[i])
  }

  // ---------------------------------------------------------------------------
  // strip

  /** Drops the longest prefix of `s` whose characters satisfy `p`. */
  function TrimLeft(s: string, p: char -> bool): (r: string)
    ensures |r| <= |s| && r == s[|s| - |r|..]
    ensures forall i :: 0 <= i < |s| - |r| ==> p(s[i])
    ensures r == [] || !p(r[0])
  {
    if s != [] && p(s[0]) then
      var t := s[1..];
      var r := TrimLeft(t, p);
      assert forall i :: 1 <= i < |s| ==> s[i] == t[i - 1];
      assert t[|t| - |r|..] == s[|s| - |r|..];
      r
    else s
  }

  /** Drops the longest suffix of `s` whose characters satisfy `p`. */
  function TrimRight(s: string, p: char -> bool): (r: string)
    ensures |r| <= |s| && r == s[..|r|]
    ensures forall i :: |r| <= i < |s| ==> p(s[i])
    ensures r == [] || !p(r[|r| - 1])
  {
    if s != [] && p(s[|s| - 1]) then
      var t := s[..|s| - 1];
      var r := TrimRight(t, p);
      assert forall i :: 0 <= i < |t| ==> s[i] == t[i];
      assert t[..|r|] == s[..|r|];
      r
    else s
  }

  /** `r` is `s` with the characters before position `a` and after `r`'s
      end cut off, all of them satisfying `p`. */
  predicate Stripped(s: string, a: int, r: string, p: char -> bool) {
    && 0 <= a <= |s| - |r| && r == s[a..][..|r|]
    && (forall i :: 0 <= i < a ==> p(s[i]))
    && (forall i :: a + |r| <= i < |s| ==> p(s[i]))
  }

  /** Python's `str.strip()` (with `p` = `IsSpace`) and `str.strip(chars)`
      (with `p` testing membership in `chars`): the part of `s` left after
      cutting `p`-characters from both ends, as far as they go. */
  function Trim(s: string, p: char -> bool): (r: string)
    ensures r == [] || (!p(r[0]) && !p(r[|r| - 1]))
    ensures r == [] <==> forall i :: 0 <= i < |s| ==> p(s[i])
  {
    StripBothEnds(s, p);
    TrimRight(TrimLeft(s, p), p)
  }

  /** The stripped string is a slice of `s`, and everything cut from either
      side satisfies `p`. */
  lemma TrimIsSlice(s: string, p: char -> bool)
    ensures exists a :: Stripped(s, a, Trim(s, p), p)
  {
    StripBothEnds(s, p);
    assert Stripped(s, |s| - |TrimLeft(s, p)|, Trim(s, p), p);
  }

  /** Conversely, a slice of `s` with only `p`-characters around it, and
      whose own ends do not satisfy `p`, is the stripped string: the two
      properties pin `Trim` down completely. */
  lemma {:induction false} TrimUnique(s: string, p: char -> bool, a: int, r: string)
    requires Stripped(s, a, r, p)
    requires r == [] || (!p(r[0]) && !p(r[|r| - 1]))
    ensures r == Trim(s, p)
  {
    StripBothEnds(s, p);
    var t := Trim(s, p);
    var b := |s| - |TrimLeft(s, p)|;
    if r == [] {
      assert forall i :: 0 <= i < |s| ==> p(s[i]) by {
        forall i | 0 <= i < |s| ensures p(s[i]) {
          if i >= a {
            assert a + |r| <= i;
          }
        }
      }
    } else {
      assert s[a] == r[0];
      assert t != [];
      assert s[b] == t[0];
      assert a == b;
      assert s[a + |r| - 1] == r[|r| - 1];
      assert s[b + |t| - 1] == t[|t| - 1];
      assert |r| == |t|;
    }
  }

  /** Stripping the left end and then the right end leaves a slice of `s`
      whose surroundings all satisfy `p`. */
  lemma StripBothEnds(s: string, p: char -> bool)
    ensures Stripped(s, |s| - |TrimLeft(s, p)|, TrimRight(TrimLeft(s, p), p), p)
  {
    var l := TrimLeft(s, p);
    var r := TrimRight(l, p);
    var a := |s| - |l|;
    assert l == s[a..];
    assert r == l[..|r|];
    forall i | a + |r| <= i < |s| ensures p(s[i]) {
      assert s[i] == l[i - a];
    }
  }

  // ---------------------------------------------------------------------------
  // split and join

  /** The pending word `cur`, if there is one, as a list of words. */
  function Flush(cur: string): seq<string> {
    if cur == [] then [] else [cur]
  }

  /** Scans `s` left to right, `cur` holding the word read so far. */
  function WordsFrom(s: string, cur: string): (ws: seq<string>)
    requires forall i :: 0 <= i < |cur| ==> !IsSpace(cur[i])
    ensures forall i :: 0 <= i < |ws| ==> IsWord(ws[i])
    decreases |s|
  {
    if s == [] then Flush(cur)
    else if IsSpace(s[0]) then Flush(cur) + WordsFrom(s[1..], [])
    else WordsFrom(s[1..], cur + [s[0]])
  }

  /** Python's `s.split()`: the maximal whitespace-free runs of `s`, in order. */
  function Words(s: string): (ws: seq<string>)
    ensures forall i :: 0 <= i < |ws| ==> IsWord(ws[i])
  {
    WordsFrom(s, [])
  }

  /** Python's `sep.join(xs)`. */
  function JoinWith(xs: seq<string>, sep: string): string {
    if xs == [] then []
    else if |xs| == 1 then xs[0]
    else xs[0] + sep + JoinWith(xs[1..], sep)
  }

  /** Concatenation of a sequence of sequences. */
  function Flatten<T>(xss: seq<seq<T>>): seq<T> {
    if xss == [] then [] else xss[0] + Flatten(xss[1..])
  }

  /** The words of each string of `xs`, one after the other. */
  function FlatWords(xs: seq<string>): seq<string> {
    if xs == [] then [] else Words(xs[0]) + FlatWords(xs[1..])
  }

  lemma {:induction false} WordsFromSplit(a: string, c: char, b: string, cur: string)
    requires IsSpace(c)
    requires forall i :: 0 <= i < |cur| ==> !IsSpace(cur[i])
    ensures WordsFrom(a + [c] + b, cur) == WordsFrom(a, cur) + Words(b)
    decreases |a|
  {
    var s := a + [c] + b;
    if a == [] {
      assert s[0] == c && s[1..] == b;
    } else if IsSpace(a[0]) {
      assert s[0] == a[0] && s[1..] == a[1..] + [c] + b;
      WordsFromSplit(a[1..], c, b, []);
    } else {
      assert s[0] == a[0] && s[1..] == a[1..] + [c] + b;
      WordsFromSplit(a[1..], c, b, cur + [a[0]]);
    }
  }

  /** A whitespace character separates words: the words of `a + [c] + b` are
      those of `a` followed by those of `b`. */
  lemma WordsSplitAtSpace(a: string, c: char, b: string)
    requires IsSpace(c)
    ensures Words(a + [c] + b) == Words(a) + Words(b)
  {
    WordsFromSplit(a, c, b, []);
  }

  lemma {:induction false} WordsFromWord(w: string, cur: string)
    requires forall i :: 0 <= i < |cur| ==> !IsSpace(cur[i])
    requires forall i :: 0 <= i < |w| ==> !IsSpace(w[i])
    ensures WordsFrom(w, cur) == Flush(cur + w)
    decreases |w|
  {
    if w != [] {
      assert cur + w == (cur + [w[0]]) + w[1..];
      assert WordsFrom(w, cur) == WordsFrom(w[1..], cur + [w[0]]);
      WordsFromWord(w[1..], cur + [w[0]]);
    } else {
      assert cur + w == cur;
    }
  }

  /** A string that is a single word splits into exactly that word. */
  lemma WordsOfWord(w: string)
    requires IsWord(w)
    ensures Words(w) == [w]
  {
    WordsFromWord(w, []);
    assert [] + w == w;
  }

  /** Splitting a join on a one-character whitespace separator yields the words
      of the joined pieces. */
  lemma {:induction false} WordsOfJoin(xs: seq<string>, sep: string)
    requires |sep| == 1 && IsSpace(sep[0])
    ensures Words(JoinWith(xs, sep)) == FlatWords(xs)
    decreases |xs|
  {
    if xs == [] {
    } else if |xs| == 1 {
      assert FlatWords(xs[1..]) == [];
    } else {
      assert sep == [sep[0]];
      assert JoinWith(xs, sep) == xs[0] + [sep[0]] + JoinWith(xs[1..], sep);
      WordsSplitAtSpace(xs[0], sep[0], JoinWith(xs[1..], sep));
      WordsOfJoin(xs[1..], sep);
    }
  }

  lemma {:induction false} FlatWordsOfWords(xs: seq<string>)
    requires forall i :: 0 <= i < |xs| ==> IsWord(xs[i])
    ensures FlatWords(xs) == xs
    decreases |xs|
  {
    if xs != [] {
      WordsOfWord(xs[0]);
      FlatWordsOfWords(xs[1..]);
    }
  }

  /** `sep.join` followed by `split()` is the identity on lists of words. */
  lemma WordsJoinRoundTrip(xs: seq<string>, sep: string)
    requires |sep| == 1 && IsSpace(sep[0])
    requires forall i :: 0 <= i < |xs| ==> IsWord(xs[i])
    ensures Words(JoinWith(xs, sep)) == xs
  {
    WordsOfJoin(xs, sep);
    FlatWordsOfWords(xs);
  }

  lemma {:induction false} WordsOfTrimLeft(s: string)
    ensures Words(TrimLeft(s, IsSpace)) == Words(s)
    decreases |s|
  {
    if s != [] && IsSpace(s[0]) {
      WordsOfTrimLeft(s[1..]);
    }
  }

  lemma {:induction false} WordsOfSpaces(s: string)
    requires forall i :: 0 <= i < |s| ==> IsSpace(s[i])
    ensures Words(s) == []
    decreases |s|
  {
    if s != [] {
      WordsOfSpaces(s[1..]);
    }
  }

  lemma WordsOfTrimRight(t: string)
    ensures Words(TrimRight(t, IsSpace)) == Words(t)
  {
    var u := TrimRight(t, IsSpace);
    if |u| < |t| {
      var rest := t[|u| + 1..];
      assert t == u + [t[|u|]] + rest;
      assert forall i :: 0 <= i < |rest| ==> rest[i] == t[|u| + 1 + i];
      WordsSplitAtSpace(u, t[|u|], rest);
      WordsOfSpaces(rest);
    } else {
      assert u == t;
    }
  }

  /** Whitespace at either end does not change the words. */
  lemma WordsOfTrim(s: string)
    ensures Words(Trim(s, IsSpace)) == Words(s)
  {
    WordsOfTrimLeft(s);
    WordsOfTrimRight(TrimLeft(s, IsSpace));
  }

  // ---------------------------------------------------------------------------
  // the `\s+` -> " " substitution

  /** Scans `s` left to right; `afterSpace` tells whether the last character
      read was whitespace, already replaced by one space. */
  function CollapseFrom(s: string, afterSpace: bool): (r: string)
    ensures forall i :: 0 <= i < |r| && IsSpace(r[i]) ==> r[i] == ' '
    ensures forall i :: 0 <= i < |r| - 1 && IsSpace(r[i]) ==> !IsSpace(r[i + 1])
    ensures afterSpace && r != [] ==> !IsSpace(r[0])
    decreases |s|
  {
    if s == [] then []
    else if IsSpace(s[0]) then (if afterSpace then [] else " ") + CollapseFrom(s[1..], true)
    else [s[0]] + CollapseFrom(s[1..], false)
  }

  /** `re.sub(r"\s+", " ", s)`: every maximal run of whitespace becomes one
      space, and no two spaces are adjacent in the result. */
  function Collapse(s: string): (r: string)
    ensures forall i :: 0 <= i < |r| && IsSpace(r[i]) ==> r[i] == ' '
    ensures forall i :: 0 <= i < |r| - 1 && IsSpace(r[i]) ==> !IsSpace(r[i + 1])
  {
    CollapseFrom(s, false)
  }

  lemma {:induction false} CollapseInWord(s: string, cur: string)
    requires forall i :: 0 <= i < |cur| ==> !IsSpace(cur[i])
    requires s != [] ==> !IsSpace(s[|s| - 1])
    requires cur == [] ==> s == [] || !IsSpace(s[0])
    ensures cur + CollapseFrom(s, false) == JoinWith(WordsFrom(s, cur), " ")
    decreases |s|, 1
  {
    if s == [] {
    } else if IsSpace(s[0]) {
      var t := s[1..];
      assert t != [] && t[|t| - 1] == s[|s| - 1];
      assert CollapseFrom(s, false) == " " + CollapseFrom(t, true);
      assert WordsFrom(s, cur) == [cur] + Words(t);
      CollapseAfterSpace(t);
      WordsNonEmpty(t);
      JoinCons(cur, Words(t), " ");
    } else {
      var c := CollapseFrom(s[1..], false);
      assert CollapseFrom(s, false) == [s[0]] + c;
      CollapseInWord(s[1..], cur + [s[0]]);
      assert cur + ([s[0]] + c) == (cur + [s[0]]) + c;
    }
  }

  lemma JoinCons(x: string, xs: seq<string>, sep: string)
    requires xs != []
    ensures JoinWith([x] + xs, sep) == x + (sep + JoinWith(xs, sep))
  {
    assert ([x] + xs)[1..] == xs;
  }

  lemma {:induction false} CollapseAfterSpace(t: string)
    requires t != [] && !IsSpace(t[|t| - 1])
    ensures CollapseFrom(t, true) == JoinWith(Words(t), " ")
    decreases |t|, 0
  {
    if IsSpace(t[0]) {
      assert Flush([]) == [];
      assert Words(t) == Words(t[1..]);
      CollapseAfterSpace(t[1..]);
    } else {
      CollapseInWord(t[1..], [t[0]]);
      assert [] + [t[0]] == [t[0]];
    }
  }

  lemma {:induction false} WordsNonEmpty(t: string)
    requires t != [] && !IsSpace(t[|t| - 1])
    ensures Words(t) != []
    decreases |t|
  {
    if IsSpace(t[0]) {
      WordsNonEmpty(t[1..]);
    } else {
      var j := |t| - 1;
      assert t == t[..j] + [t[j]];
      WordsOfLastChar(t[..j], t[j], []);
    }
  }

  lemma {:induction false} WordsOfLastChar(a: string, c: char, cur: string)
    requires !IsSpace(c)
    requires forall i :: 0 <= i < |cur| ==> !IsSpace(cur[i])
    ensures WordsFrom(a + [c], cur) != []
    decreases |a|
  {
    var s := a + [c];
    if a == [] {
      assert s[1..] == [];
    } else {
      assert s[0] == a[0] && s[1..] == a[1..] + [c];
      if IsSpace(a[0]) {
        WordsOfLastChar(a[1..], c, []);
      } else {
        WordsOfLastChar(a[1..], c, cur + [a[0]]);
      }
    }
  }

  /** Stripping and then collapsing whitespace, as the converter does before
      matching, yields the words of the text joined by single spaces. */
  lemma CollapseOfStrip(s: string)
    ensures Collapse(Trim(s, IsSpace)) == JoinWith(Words(s), " ")
  {
    var y := Trim(s, IsSpace);
    CollapseInWord(y, []);
    assert [] + Collapse(y) == Collapse(y);
    WordsOfTrim(s);
  }

  // ---------------------------------------------------------------------------
  // `in` and `str.replace`

  /** Python's `pat in s`. */
  predicate Contains(s: string, pat: string)
    decreases |s|
  {
    |pat| <= |s| && (s[..|pat|] == pat || (s != [] && Contains(s[1..], pat)))
  }

  lemma JoinHeadPrefix(xs: seq<string>, sep: string)
    requires |xs| >= 1
    ensures |xs[0]| <= |JoinWith(xs, sep)| && JoinWith(xs, sep)[..|xs[0]|] == xs[0]
  {
  }

  lemma JoinExtendHead(x: string, t: seq<string>, sep: string)
    requires |t| >= 1
    ensures JoinWith([x + t[0]] + t[1..], sep) == x + JoinWith(t, sep)
  {
    var u := [x + t[0]] + t[1..];
    assert u[1..] == t[1..];
  }

  /** Extending the last of the joined pieces extends the join. */
  lemma {:induction false} JoinSnocLast(xs: seq<string>, x: string, sep: string)
    requires xs != []
    ensures JoinWith(xs[..|xs| - 1] + [xs[|xs| - 1] + x], sep) == JoinWith(xs, sep) + x
    decreases |xs|
  {
    var ys := xs[..|xs| - 1] + [xs[|xs| - 1] + x];
    if |xs| > 1 {
      var t := xs[1..];
      JoinSnocLast(t, x, sep);
      assert ys[0] == xs[0];
      assert ys[1..] == t[..|t| - 1] + [t[|t| - 1] + x];
    }
  }

  /** The pieces of `s` between the occurrences of `pat` that a left-to-right,
      non-overlapping scan finds: joining them with `pat` gives `s` back, and
      no piece contains `pat`. */
  function Segments(s: string, pat: string): (segs: seq<string>)
    requires |pat| > 0
    ensures |segs| >= 1
    ensures JoinWith(segs, pat) == s
    ensures forall i :: 0 <= i < |segs| ==> !Contains(segs[i], pat)
    decreases |s|
  {
    if |s| < |pat| then [s]
    else if s[..|pat|] == pat then
      var rest := Segments(s[|pat|..], pat);
      assert JoinWith([[]] + rest, pat) == pat + JoinWith(rest, pat);
      [[]] + rest
    else
      var t := Segments(s[1..], pat);
      var head := [s[0]] + t[0];
      JoinHeadPrefix(t, pat);
      JoinExtendHead([s[0]], t, pat);
      assert head[1..] == t[0];
      assert |pat| <= |head| ==> head[..|pat|] == s[..|pat|];
      [head] + t[1..]
  }

  /** Python's `s.replace(pat, rep)` for a non-empty `pat`: the occurrences a
      left-to-right scan finds, without overlap, are replaced by `rep`. */
  function ReplaceAll(s: string, pat: string, rep: string): (r: string)
    requires |pat| > 0
    ensures r == JoinWith(Segments(s, pat), rep)
    decreases |s|
  {
    if |s| < |pat| then s
    else if s[..|pat|] == pat then
      var rest := ReplaceAll(s[|pat|..], pat, rep);
      assert JoinWith([[]] + Segments(s[|pat|..], pat), rep) == rep + rest;
      rep + rest
    else
      var rest := ReplaceAll(s[1..], pat, rep);
      JoinExtendHead([s[0]], Segments(s[1..], pat), rep);
      [s[0]] + rest
  }

  /** When `pat` does not occur, `replace` returns the text unchanged. */
  lemma {:induction false} ReplaceAbsent(s: string, pat: string, rep: string)
    requires |pat| > 0 && !Contains(s, pat)
    ensures ReplaceAll(s, pat, rep) == s
    decreases |s|
  {
    if |s| >= |pat| {
      assert s[..|pat|] != pat;
      ReplaceAbsent(s[1..], pat, rep);
      assert s == [s[0]] + s[1..];
    }
  }

  // ---------------------------------------------------------------------------
  // splitting on one character

  /** Python's `s.count(c)`. */
  function CountChar(s: string, c: char): nat {
    if s == [] then 0 else (if s[0] == c then 1 else 0) + CountChar(s[1..], c)
  }

  /** Python's `s.split(c)`: the pieces between occurrences of `c`. There is
      always one more piece than there are occurrences, and joining them with
      `c` gives `s` back. */
  function SplitOn(s: string, c: char): (parts: seq<string>)
    ensures |parts| == CountChar(s, c) + 1
    ensures JoinWith(parts, [c]) == s
    ensures forall i :: 0 <= i < |parts| ==> c !in parts[i]
    decreases |s|
  {
    if s == [] then [[]]
    else
      var rest := SplitOn(s[1..], c);
      if s[0] == c then
        assert JoinWith([[]] + rest, [c]) == [c] + JoinWith(rest, [c]);
        [[]] + rest
      else
        JoinExtendHead([s[0]], rest, [c]);
        [[s[0]] + rest[0]] + rest[1..]
  }

  /** Splitting a `c`-join of `c`-free pieces gives the pieces back. */
  lemma {:induction false} SplitOnJoin(xs: seq<string>, c: char)
    requires |xs| >= 1
    requires forall i :: 0 <= i < |xs| ==> c !in xs[i]
    ensures SplitOn(JoinWith(xs, [c]), c) == xs
    decreases |xs|
  {
    if |xs| == 1 {
      SplitOnFree(xs[0], c);
    } else {
      SplitOnJoin(xs[1..], c);
      SplitOnAppend(xs[0], c, JoinWith(xs[1..], [c]));
      assert JoinWith(xs, [c]) == xs[0] + [c] + JoinWith(xs[1..], [c]);
    }
  }

  lemma {:induction false} SplitOnFree(w: string, c: char)
    requires c !in w
    ensures SplitOn(w, c) == [w]
    decreases |w|
  {
    if w != [] {
      assert w[0] != c;
      SplitOnFree(w[1..], c);
      assert w == [w[0]] + w[1..];
    }
  }

  lemma {:induction false} SplitOnAppend(w: string, c: char, rest: string)
    requires c !in w
    ensures SplitOn(w + [c] + rest, c) == [w] + SplitOn(rest, c)
    decreases |w|
  {
    var s := w + [c] + rest;
    if w == [] {
      assert s[0] == c && s[1..] == rest;
    } else {
      assert s[0] == w[0] && w[0] != c;
      assert s[1..] == w[1..] + [c] + rest;
      SplitOnAppend(w[1..], c, rest);
      assert w == [w[0]] + w[1..];
    }
  }

  // ---------------------------------------------------------------------------
  // decimal rendering

  function DigitChar(d: nat): char
    requires d < 10
  {
    (48 + d) as char
  }

  /** Python's `str(n)` for a natural number: its decimal digits. */
  function Decimal(n: nat): (r: string)
    ensures |r| >= 1 && forall i :: 0 <= i < |r| ==> '0' <= r[i] <= '9'
    ensures |r| == 1 <==> n < 10
    decreases n
  {
    if n < 10 then [DigitChar(n)] else Decimal(n / 10) + [DigitChar(n % 10)]
  }

  /** Distinct numbers have distinct decimal renderings. */
  lemma {:induction false} DecimalInjective(m: nat, n: nat)
    requires Decimal(m) == Decimal(n)
    ensures m == n
    decreases m
  {
    var a, b := Decimal(m), Decimal(n);
    if m < 10 || n < 10 {
      assert |a| == 1 && |b| == 1;
      assert m < 10 && n < 10;
      assert a[0] == b[0];
    } else {
      assert a[|a| - 1] == b[|b| - 1];
      assert m % 10 == n % 10;
      assert a[..|a| - 1] == Decimal(m / 10);
      assert b[..|b| - 1] == Decimal(n / 10);
      DecimalInjective(m / 10, n / 10);
    }
  }
}

=== FILE: wrappers.dfy ===
/** Option and Result, the failure-carrying values the converter returns. */
module Wrappers {

  /** A value that may be absent (Python's `None` or a missing dictionary key). */
  datatype Option<+T> = None | Some(value: T)

  /** The outcome of a conversion: a value, or the message of the error raised. */
  datatype Result<+R, +E> = Success(value: R) | Failure(error: E)
}
